=== FILE: README.md ===
# Update pipeline of the Telegram bot in `api/bot.js`

This project is a Dafny model of how the bot processes one inbound update. An
update goes through these stages in order:

1. The **flood limiter** keeps, per (chat, user) pair, the timestamps of the last
   20 seconds. It deletes an update once that window holds more than 15 entries.
2. The **`/start` handler** and the **contact handler** set or clear the session's
   verification flag.
3. The **verification gate** stops unverified users.
4. The **main handler** picks one capability for a photo, document or text
   message: OCR, the `/todo` sub-router, summarize, paraphrase, anime, meme,
   weather, translate, reminder, or the AI fallback.

The **inline-query answer** is modelled on its own.

The external services are inputs. The OCR engine, the picture, meme, weather,
translation and language-model APIs, and the file links each either yield a value
or fail. A failure becomes the helper's fixed fallback text. The clock is a
parameter. A reminder is returned as a scheduled reply instead of a timer.

The modules follow the stages:

- `JsString` and `JsNumber` give the JavaScript string operations and the
  string-to-Number conversion the handlers use.
- `Flood`, `Session` and `Todo` are the stateful parts.
- `Patterns` holds the three regular expressions as explicit leftmost searches,
  each with a declarative statement of what a match is.
- `Router` is the main handler's first-match-wins cascade, stated both as a
  function and as a rule table.
- `Respond` gives the replies each capability produces.
- `Inline` is the inline-query answer.
- `Pipeline` is the whole chain for one update.

## Model

| member | source | states |
|---|---|---|
| Flood.Prune | api/bot.js:30 | the kept window has no more entries than before, and a timestamp is kept iff it was there and is less than 20000 ms older than `now` (strict) |
| Flood.PruneAppend | api/bot.js:30 | the filter keeps order: pruning a concatenation prunes each part in place |
| Flood.PruneKeepsRecent | api/bot.js:30 | a window whose entries are all recent is kept whole |
| Flood.Observe | api/bot.js:29-31 | after an update the window ends with `now` and holds only recent entries; the update is admitted iff the window has at most 15 entries |
| Flood.ObserveWindow | api/bot.js:29-31 | the new window is exactly the old recent entries followed by `now`, even when the update is dropped; the update is admitted iff fewer than 15 old entries are still recent |
| Flood.Track | api/bot.js:27-31 | only the sender's (chat, user) window changes; it becomes the pruned old window plus `now`, and the verdict is "at most 15" |
| Flood.ObserveSorted | api/bot.js:29-30 | with a clock that does not run backwards, windows stay in time order |
| Flood.PruneSorted | api/bot.js:30 | pruning keeps a sorted window sorted |
| Flood.Run | api/bot.js:26-33 | a sequence of updates gets one verdict each |
| Flood.BurstVerdicts | api/bot.js:29-31 | within one 20-second burst, the n-th update is admitted iff the earlier window plus the n+1 updates so far number at most 15 |
| Flood.BurstShift | api/bot.js:29-30 | after the first update of a burst, the rest is still a burst against the new window |
| Flood.SixteenthSuppressed | api/bot.js:31 | sixteen updates within 20 seconds from a new identity: the first fifteen pass and the sixteenth is deleted |
| Session.Start | api/bot.js:137-144 | `/start` leaves the session unverified with an empty to-do list whatever it was before, and replies with the verification prompt |
| Session.ShareContact | api/bot.js:145-151 | a contact share verifies iff the contact's user id is the sender's id; otherwise the session is unchanged and the warning is replied; the to-do list is never touched |
| Session.StartForgets | api/bot.js:137-139 | `/start` gives the same result from any two sessions, so an already verified user is de-verified |
| Session.OwnContactOpensGate | api/bot.js:146-147 | after sharing one's own contact, every later message passes the gate |
| Session.Passes | api/bot.js:153 | the gate's condition: a verified session or the exact text `/start`; the update-type clause compares with `'contact'`, which a message update's type never is, so it is left out |
| Session.UnverifiedGate | api/bot.js:152-157 | for an unverified session the gate passes exactly the text `/start`; a contact share without text is stopped |
| Todo.SpliceStart | api/bot.js:223 | the splice start position of ECMAScript 2023 section 23.1.3.31: negative counts from the end and stops at 0, past the end stops at the end, infinities go to the two ends |
| Todo.DeleteIndex | api/bot.js:223 | the start of `list.splice(+args[1]-1, 1)` lies within the list or at its end |
| Todo.Command | api/bot.js:219-224 | given the words after the command word: `add` appends the remaining words joined by single spaces as one item and echoes that item; `list` keeps the list and replies with its rendering; `del` is a splice at the index computed from the second word; any other verb keeps the list and replies with the usage text |
| Todo.Args | api/bot.js:219 | the words after the command word contain no space, and the command word followed by them, joined by spaces, gives back the text |
| Todo.Handle | api/bot.js:218-225 | on the lowercased `/todo` text, the list grows or shrinks by at most one item, and it changes only for the verbs `add` and `del` |
| Todo.Render | api/bot.js:222 | the `list` reply is the empty-list text exactly when the list is empty; otherwise it is the `📝 ` header followed by the numbered lines joined by `\n`, whatever the items contain |
| Todo.Delete | api/bot.js:223 | a splice of one element at `k`: removes exactly the k-th element and replies with it, or at the end removes nothing and replies with the bare `❌ Dihapus: ` prefix, since an empty array renders as empty text |
| Todo.HandleWithoutList | api/bot.js:218-224 | in a session whose list was never set, `add` sends its acknowledgement and stores nothing, `list` and `del` send nothing, and any other verb gets the usage text |
| Todo.WithoutListRepliesAlike | api/bot.js:219-224 | without a list, any reply that is sent is the one the same command sends with a list, and exactly `list` and `del` stay silent |
| Todo.Numbered | api/bot.js:222 | the listing lines are `i. item`, numbered from 1 |
| Todo.ArgsOf | api/bot.js:219 | the words after the command word are the verb followed by the split of the rest |
| Todo.AddAppendsRest | api/bot.js:219-221 | `/todo add <rest>` appends `rest` as one item, spaces included, at the end, and echoes it |
| Todo.StartBeforeNumber | api/bot.js:223 | `+arg - 1` for an argument worth k is the integer k - 1 |
| Todo.DeleteIndexOfNumber | api/bot.js:223 | for an argument that converts to the Number k the splice starts at k - 1, with the usual clamping |
| Todo.CommandDelete | api/bot.js:223 | a `del` command with an argument splices at that argument's index |
| Todo.CommandDeleteNumber | api/bot.js:223 | a `del` command whose argument converts to the Number k splices at k - 1 |
| Todo.DeleteKth | api/bot.js:223 | splicing at `k - 1` removes the k-th item when 1 ≤ k ≤ length and nothing when k is larger |
| Todo.DeleteNumber | api/bot.js:223 | `del` with an argument that converts to the Number k (decimal digits, or the same padded with white space): with 1 ≤ k ≤ length removes exactly the k-th item and keeps the order of the rest; a larger k changes nothing |
| Todo.ArgsOfNumber | api/bot.js:219 | `cmd del <digits>` has the words `del` and the digits |
| Todo.DeleteZeroRemovesLast | api/bot.js:223 | `del 0` computes start -1, which counts from the end, so it removes the last item |
| Todo.DeleteWithoutNumberRemovesFirst | api/bot.js:223 | `del` without a number computes NaN, which starts at 0, so it removes the first item |
| Todo.ArgsOfBareDelete | api/bot.js:219 | `cmd del` has the single word `del` |
| Todo.ParseNumberedLine | api/bot.js:222 | a listing line reads back as its number and item |
| Todo.ParseNumberedLines | api/bot.js:222 | numbered lines read back as the items, in order |
| Todo.ListingRoundTrip | api/bot.js:222 | for items without newlines, the `list` reply read back gives the whole list in order; the empty list reads as the empty-list reply |
| Todo.ParsedLineIsNumbered | api/bot.js:222 | a line that reads back as a number and an item is exactly that item's `n. item` line, number written without leading zeros |
| Todo.ParsedLinesAreNumbered | api/bot.js:222 | lines that read back as a list are exactly its numbered lines |
| Todo.ListingExact | api/bot.js:222 | any text that reads back as a list is the `list` reply for it, character for character, so the reply is the only rendering of the list |
| Todo.NumberedLinesSingle | api/bot.js:222 | listing lines contain no newline when the items contain none |
| JsString.ToLower | api/bot.js:215 | lowercasing keeps the length and maps every character on its own |
| JsString.Contains | api/bot.js:238-239 | `includes` holds iff the pattern occurs at some position |
| JsString.Join | api/bot.js:221-222 | `.join(' ')` and `.join('\n')`; what it states is in `JsString.JoinSplit` (joining the split pieces gives back the text) and `JsString.SplitJoin` (splitting a join of separator-free pieces gives back the pieces) |
| JsString.StartsWith | api/bot.js:202-232 | `startsWith` in the main handler's tests (and at line 178 inline); `JsString.StartsWithSplits` states it |
| JsString.StartsWithSplits | api/bot.js:178 | a text starts with `p` exactly when it is `p` followed by the rest of the text, and `p` followed by anything starts with `p` |
| JsString.Split | api/bot.js:219 | `split(' ')` gives at least one piece and no piece contains the separator |
| JsString.JoinSplit | api/bot.js:219-221 | joining the split pieces with the separator gives back the string |
| JsString.SplitJoin | api/bot.js:222 | splitting a join of separator-free pieces gives back the pieces |
| JsString.Trim | api/bot.js:240 | `trim` is a slice with white space only around it, and it neither starts nor ends with white space |
| JsString.TrimKeeps | api/bot.js:240 | text that neither starts nor ends with white space trims to itself |
| JsNumber.StringToNumber | api/bot.js:223 | the unary `+` on the argument: white space around it is ignored, a blank argument is 0, a numeric literal gives its value and anything else NaN (its properties are stated by `DigitStringValue`, `BlankIsZero` and `NotANumeral`) |
| JsNumber.ToIntegerOrInfinity | api/bot.js:223 | NaN becomes 0, the infinities stay infinite, and a finite value becomes the integer next to it toward zero |
| JsNumber.Truncate | api/bot.js:223 | rounding toward zero, as ToIntegerOrInfinity does |
| JsNumber.DigitStringValue | api/bot.js:223 | a non-empty string of decimal digits converts to the Number of its decimal value |
| JsNumber.DigitsLiteral | api/bot.js:223 | a non-empty digit string is a numeric literal for its value, not a `0x`/`0o`/`0b` literal |
| JsNumber.DigitsUnsigned | api/bot.js:223 | a non-empty digit string is an unsigned decimal literal without fraction or exponent |
| JsNumber.NatToString | api/bot.js:222 | `${i+1}` renders a natural number as decimal digits, at least one, with no leading zero unless the number is 0 |
| JsNumber.LeadingDigitPositive | api/bot.js:222 | digits with a non-zero first digit are worth at least 1 |
| JsNumber.CanonicalDigits | api/bot.js:222 | decimal digits without a leading zero are the rendering of their own value, so `${n}` is the only such way to write n |
| JsNumber.NatToStringValue | api/bot.js:222 | reading back the decimal rendering of `n` gives `n` |
| JsNumber.NatToStringNumber | api/bot.js:222-223 | the rendering of an item number converts back to that number |
| JsNumber.BlankIsZero | api/bot.js:223 | a blank argument converts to 0 |
| JsNumber.NotANumeral | api/bot.js:223 | an argument that cannot start a numeric literal converts to NaN |
| Patterns.WeatherCity | api/bot.js:240 | the first capture of `/cuaca\s+(.+)/`: the capture of the leftmost match, or nothing when the pattern does not match (`Router.WeatherDecided` and `Patterns.KeywordTailLeftmost` state both) |
| Patterns.TranslateText | api/bot.js:241 | the first capture of `/translate\s+(.+)/`, in the same way (`Router.TranslateDecided`) |
| Patterns.MatchTail | api/bot.js:240-243 | `\s+(.+)` at a position: when it matches, the capture a backtracking matcher takes first (longest white space, then longest capture); otherwise no match there at all |
| Patterns.TailShape | api/bot.js:240-243 | any `\s+(.+)` match starts in the white space run and ends no later than the end of the line |
| Patterns.MatchKeywordAt | api/bot.js:240-241 | `kw\s+(.+)` is found at a position iff the keyword is there and the tail matches after it |
| Patterns.FindKeywordTail | api/bot.js:240-241 | a found match lies within the text and is a match of `kw\s+(.+)` at that position |
| Patterns.KeywordTailNoneBefore | api/bot.js:240-241 | the search skips no position where the pattern matches |
| Patterns.KeywordTailLeftmost | api/bot.js:240-241 | the search result is the leftmost match with the backtracking capture, and nothing found means no match anywhere |
| Patterns.KeywordEnd | api/bot.js:242-243 | `remind(?:er)?` takes `er` exactly when it follows |
| Patterns.DigitEndIsDecimalRun | api/bot.js:242-244 | the digit run the reminder's `(\d+)` captures ends where the decimal digit run read by `+m` ends |
| Patterns.RemindShape | api/bot.js:242-243 | in every reminder match the keyword, white space and digits end where their runs end |
| Patterns.MatchRemindAt | api/bot.js:242-243 | `remind(?:er)?\s+(\d+)\s+(.+)` at a position: a match with the only possible digit capture and the backtracking message capture, or no match there |
| Patterns.FindRemind | api/bot.js:242-243 | the reminder search returns a match at its position and passes over only positions without a match |
| Patterns.RemindLeftmost | api/bot.js:242-243 | the reminder search gives the leftmost match, non-empty digits, the backtracking message capture; nothing found means no match anywhere |
| Patterns.SingleSpaceTail | api/bot.js:240-243 | after one space and a line that starts with something else, `\s+(.+)` captures the rest of the line |
| Patterns.KeywordCapture | api/bot.js:240 | on `kw <line>` the keyword search captures the whole line |
| Patterns.RemindCapture | api/bot.js:242-243 | on `remind(er) <digits> <line>` the reminder search captures the digits and the line |
| Router.Lowered | api/bot.js:215 | the matched text has the length of the message text, or is empty when there is none |
| Router.Classify | api/bot.js:200-250 | OCR iff a photo or an `image/` document; a fault iff a document without a media type and no photo; `/todo` gets the lowercased text; summarize and paraphrase keep the original text after their prefixes; reminders carry digits; the AI fallback gets the original text |
| Router.ClassifyText | api/bot.js:215-250 | on text the result is never OCR or a fault, and the same captures as above hold |
| Router.CommandIntent | api/bot.js:218-239 | the prefix and keyword rules select todo, summarize, paraphrase, anime or meme, with the slices the handlers read |
| Router.PatternIntent | api/bot.js:240-250 | weather iff the weather pattern matches; translate iff it does not and the translate pattern does; reminder iff neither does and the reminder pattern does; otherwise the AI fallback with the original text; each intent carries its pattern's captures |
| Router.TestDecides | api/bot.js:202-246 | each rule's test as the handler performs it holds iff the rule applies in the declarative sense |
| Router.ClassifyIsFirstMatch | api/bot.js:200-250 | the intent's rule applies and no earlier rule does; OCR comes from the first media rule that applies; the AI fallback is reached iff no rule applies |
| Router.NoneBeforeChosen | api/bot.js:200-250 | no rule ranked before the chosen one applies |
| Router.FailsBefore | api/bot.js:200-250 | every rule ranked before the chosen one fails its test |
| Router.TextFailsBefore | api/bot.js:215-250 | on text, every rule ranked before the chosen one fails its test |
| Router.CommandFailsBefore | api/bot.js:218-239 | among the prefix and keyword rules, those before the one that fires fail |
| Router.PatternFailsBefore | api/bot.js:240-250 | among the weather, translate and reminder patterns, those before the one that matches fail; when none matches, all three fail |
| Router.ChosenPasses | api/bot.js:200-250 | the rule the intent comes from passes its test |
| Router.WeatherDecided | api/bot.js:240 | the weather capture exists iff `cuaca\s+(.+)` matches somewhere |
| Router.TranslateDecided | api/bot.js:241 | the translate capture exists iff `translate\s+(.+)` matches somewhere |
| Router.RemindDecided | api/bot.js:242 | the reminder search succeeds iff the reminder pattern matches somewhere |
| Router.FirstApplicable | api/bot.js:200-250 | a rule that applies with no earlier rule applying is the one the intent comes from |
| Router.AnimeWins | api/bot.js:238-239 | text that mentions `anime` and gets past the prefix rules goes to anime, even when it also mentions `meme` |
| Router.TranslateAnimeIsAnime | api/bot.js:238-241 | `translate anime` gets the anime picture, not a translation |
| Router.WeatherIntent | api/bot.js:240 | `cuaca <city>` asks for the weather of the trimmed city |
| Router.WeatherSelected | api/bot.js:240 | when the weather pattern matches and no earlier rule applies, the city is the trimmed capture of the leftmost match |
| Router.RemindIntent | api/bot.js:242-243 | `remind <n> <msg>` and `reminder <n> <msg>` yield exactly the digits and the message |
| Router.RemindChosen | api/bot.js:242-243 | on text shaped like a reminder, the reminder rule captures the digits and the rest of the line |
| Router.RemindSelected | api/bot.js:242-243 | when the reminder pattern matches and no earlier rule applies, the captures are those of the leftmost match |
| Updates.IsStartCommand | api/bot.js:137 | the `/start` command: text that begins with `/start` followed by the end of the text or a character that cannot continue a command name |
| Router.ClassifyWeather | api/bot.js:240 | the weather city is the trimmed capture of the leftmost weather match |
| Router.ClassifyTranslate | api/bot.js:241 | the text to translate is the capture of the leftmost translate match |
| Router.ClassifyRemind | api/bot.js:242-243 | the reminder's minutes and message are the captures of the leftmost reminder match |
| Respond.OrElse | api/bot.js:36-134 | a helper yields the service's value, or its fallback text when the call failed |
| Respond.MemeOf | api/bot.js:46-56 | a meme that the service returns and that is marked neither nsfw nor spoiler is posted with its own url and title; a failed call or a flagged meme gives the placeholder |
| Respond.Handle | api/bot.js:202-250 | only `/todo` changes the list, to what the to-do sub-router gives, and its reply is the sub-router's reply; summarize, paraphrase and translate reply with their prefix and the service's text or fallback; anime posts the picture with its caption; meme posts `MemeOf`; weather replies with the service's text or fallback; the AI fallback replies with its prefix and the assistant's text for the message text; nothing is replied iff the message is a document without a media type; two replies iff OCR got a file link; something is scheduled iff the intent is a reminder |
| Respond.DelayMs | api/bot.js:244 | the reminder delay `+m*60000`: the captured digits convert to a finite Number and the delay is that Number times 60000 |
| Respond.TodoListReply | api/bot.js:218-222 | `/todo list` keeps the list and answers with one text that reads back as the list, in order, when no item spans several lines |
| Respond.FailedCallReplies | api/bot.js:36-134 | when the call behind summarize, paraphrase, anime, meme, weather, translate or the AI fallback fails, the user still gets exactly one reply, that branch's fixed fallback, and nothing else changes |
| Respond.ReminderAction | api/bot.js:242-246 | a reminder confirms at once and schedules exactly one reply, the message after `⏰ `, 60000 ms per minute of the digits' decimal value later |
| Respond.OcrReplies | api/bot.js:202-212 | OCR announces progress once the file link is known, then gives the text or the failure notice; a failed link gives only the notice |
| Inline.Answer | api/bot.js:167-196 | one or two entries; the anime entry first iff the lowercased query contains `anime`; a translation entry iff it starts with `translate `; the AI entry iff neither, and then alone; each entry holds its service's text or fallback, and every entry is one of the three rule entries, the translation entry only for a `translate ` query |
| Inline.AnswerOrdered | api/bot.js:170-195 | entries come in rule order, each at most once |
| Inline.BothRules | api/bot.js:170-186 | a query that mentions anime and starts with `translate ` gets both entries, anime first |
| Inline.TranslateAnimeBoth | api/bot.js:168-186 | `Translate Anime` gets both entries, unlike the main handler |
| Inline.AssistAnswer | api/bot.js:187-195 | otherwise the AI entry answers the whole lowercased query |
| Pipeline.SessionOf | api/bot.js:16 | a stored session is used as it is; an identity never seen before has neither the verification flag nor the to-do list set |
| Pipeline.Routed | api/bot.js:200 | the main handler listens to photo, document and text messages only |
| Pipeline.UnroutedSilent | api/bot.js:200 | a message of a verified session with no photo, document or text reaches no handler: nothing is replied or scheduled and no session changes |
| Pipeline.Process | api/bot.js:25-250 | only the sender's session can change; a deleted update sends nothing and changes no session |
| Pipeline.FloodFirst | api/bot.js:25-33 | every update, deleted or not, is recorded in its sender's window only, and it is deleted iff that window then holds more than 15 entries |
| Pipeline.Dispatch | api/bot.js:137-250 | verification is set only by sharing one's own contact and cleared only by `/start`; the to-do list changes only in a verified session or by `/start`; replies are scheduled only in a verified session |
| Pipeline.StartResets | api/bot.js:137-144 | an admitted `/start` resets the session and replies with the verification prompt |
| Pipeline.VerificationChanges | api/bot.js:137-157 | the verification flag changes only by an admitted `/start` (cleared) or an admitted share of one's own contact (set) |
| Pipeline.GateBlocks | api/bot.js:152-157 | an unverified update that is neither `/start` nor a contact share gets only the verify-first reply, and the sessions stay as they were |
| Pipeline.VerifiedRoutes | api/bot.js:152-157 | a routed message in a verified session with a list gets exactly the main handler's replies and schedule, and only the list changes; in a session verified without `/start`, to-do commands answer as without a list and nothing is stored, and other messages are answered as with any list |

## Left out

- The HTTP export (`api/bot.js:254-261`), the environment check, the bot and
  OpenAI set-up and the global error hooks: transport and process plumbing.
- The network helpers (`api/bot.js:36-134`) and the OCR engine are not modelled.
  Each external call is an input that yields a value or fails, and a failed call
  becomes the helper's literal fallback.
- The keyboards attached to the `/start` and contact replies are left out. Only
  the reply texts are modelled.
- The new-member welcome loop (`api/bot.js:160-164`): it only greets. Its
  messages are not part of the `Message` record.
- The flood middleware reads `ctx.chat`, which inline queries lack, so an inline
  query fails there before its handler runs. `Inline.Answer` models the handler
  on its own and does not model that failure.
- Flood.Observe: the source reads the clock once to append and then once more for
  every window entry inside the filter callback. The model uses one clock value
  for all of these reads, because the gaps between them are not observable here.
- Respond.DelayMs: Node's `setTimeout` fires delays above 2^31 - 1 ms after 1 ms.
  That clamp is not modelled; the delay is 60000 times the minutes.
- JsString.ToLower: only the Latin capitals A-Z are lowercased, and strings are
  sequences of code points rather than UTF-16 code units. Full Unicode
  lowercasing also changes other capitals, such as U+212A KELVIN SIGN to `k`
  and `İ` to `i̇`. Such characters reach the lowercased captures and stored items
  differently from the source: `/todo add` items, the weather city, the text to
  translate and the reminder message. The `slice(11)` and `slice(12)` offsets
  are unaffected, because those prefixes are ASCII and are sliced from the
  original text.
- JsNumber.StringToNumber: finite Numbers are exact reals. Double rounding of
  very long or fractional `del` arguments is not modelled.
- Updates.IsStartCommand: the framework decides whether a message is `/start`
  from its command entity. That code is not part of this model; it is
  approximated as text that begins with `/start` followed by the end of the text
  or a character that cannot continue a command name.
- Pipeline.SessionOf: the framework's session middleware is not part of this
  model. It is taken to hand an identity it has not seen an empty object, so the
  verification flag reads as false and the to-do list is undefined until
  `/start` sets it. A user who shares their own contact without `/start` is
  verified with no list (`Todo.HandleWithoutList`). A middleware that handed out
  no object at all would make every handler that reads the session throw; that
  is not modelled. Sessions and flood windows are both kept per (chat, user)
  pair.
- Only message updates are modelled. Callback queries and other update types
  are not.

## Notes on the code

- `Router.Fault` models a document without a media type. Reading
  `mime_type.startsWith` on it throws before any capability runs, the
  framework's error hook logs it, and nothing is replied.
- A message with neither photo, document nor text reaches no main handler and
  gets no reply (`Pipeline.Routed`).
- The gate's `updateType === 'contact'` clause never holds: a contact share is
  an update of type `message`, and `contact` is only its sub-type. The model's
  gate leaves that clause out. Its exact-`/start` clause never fires either,
  because the `/start` and contact handlers run first and answer those updates
  themselves. So in the chain the gate passes an update only when the session
  is verified (`Pipeline.GateBlocks`).
- The regular expressions' `.` refuses every line terminator of ECMAScript, and
  the model handles multi-line text that way rather than assuming one line.
- The `del` argument comes from the lowercased text. `del 0` removes the last
  item, and `del` with no number removes the first. The model follows the code
  in both cases.

=== FILE: flood.dfy ===
/** The flood limiter: per (chat, user) pair, the timestamps of the updates of the
    last 20 seconds; an update is dropped when that window holds more than 15. */
module Flood {

  /** The (chat, user) pair an update is attributed to. */
  datatype Identity = Identity(chat: int, user: int)

  /** The trailing window, in milliseconds. */
  const WindowMs: int := 20000

  /** The largest window length that still admits the update. */
  const MaxUpdates: nat := 15

  /** Every identity's retained timestamps, oldest first. */
  type Windows = map<Identity, seq<int>>

  /** The verdict on one update and the window kept after it. */
  datatype Verdict = Verdict(window: seq<int>, admitted: bool)

  /** A timestamp is kept at time `now` when it is less than the window old. */
  predicate Recent(ts: int, now: int) {
    now - ts < WindowMs
  }

  /** `w.filter(ts => now - ts < 20000)`. */
  function Prune(w: seq<int>, now: int): (r: seq<int>)
    ensures |r| <= |w|
    ensures forall ts :: ts in r <==> ts in w && Recent(ts, now)
  {
    if |w| == 0 then []
    else (if Recent(w[0], now) then [w[0]] else []) + Prune(w[1..], now)
  }

  /** Pruning a concatenation prunes each part in place: the filter keeps order. */
  lemma {:induction false} PruneAppend(a: seq<int>, b: seq<int>, now: int)
    ensures Prune(a + b, now) == Prune(a, now) + Prune(b, now)
    decreases |a|
  {
    if |a| == 0 {
      assert a + b == b;
    } else {
      var head := if Recent(a[0], now) then [a[0]] else [];
      assert (a + b)[0] == a[0];
      assert (a + b)[1..] == a[1..] + b;
      calc {
        Prune(a + b, now);
        head + Prune(a[1..] + b, now);
        { PruneAppend(a[1..], b, now); }
        head + (Prune(a[1..], now) + Prune(b, now));
        (head + Prune(a[1..], now)) + Prune(b, now);
        Prune(a, now) + Prune(b, now);
      }
    }
  }

  /** Pruning a window whose entries are all recent keeps it whole. */
  lemma {:induction false} PruneKeepsRecent(w: seq<int>, now: int)
    requires forall k :: 0 <= k < |w| ==> Recent(w[k], now)
    ensures Prune(w, now) == w
    decreases |w|
  {
    if |w| > 0 {
      PruneKeepsRecent(w[1..], now);
    }
  }

  /** One update at time `now` against the window `w` the identity had: append
      `now`, prune, and admit when at most 15 entries remain. The suppressed
      update's own timestamp stays in the window. */
  function Observe(w: seq<int>, now: int): (v: Verdict)
    ensures |v.window| >= 1 && v.window[|v.window| - 1] == now
    ensures forall k :: 0 <= k < |v.window| ==> Recent(v.window[k], now)
    ensures v.admitted <==> |v.window| <= MaxUpdates
  {
    var kept := Prune(w + [now], now);
    PruneAppend(w, [now], now);
    Verdict(kept, |kept| <= MaxUpdates)
  }

  /** The window after an update is the earlier entries still recent, then `now`. */
  lemma ObserveWindow(w: seq<int>, now: int)
    ensures Observe(w, now).window == Prune(w, now) + [now]
    ensures Observe(w, now).admitted <==> |Prune(w, now)| < MaxUpdates
  {
    PruneAppend(w, [now], now);
  }

  /** The window recorded for `id` (empty for an identity not seen yet). */
  function WindowOf(fl: Windows, id: Identity): seq<int> {
    if id in fl then fl[id] else []
  }

  /** The flood middleware's bookkeeping: only `id`'s window changes. */
  function Track(fl: Windows, id: Identity, now: int): (r: (Windows, bool))
    ensures r.0.Keys == fl.Keys + {id}
    ensures forall other :: other in fl && other != id ==> r.0[other] == fl[other]
    ensures r.0[id] == Prune(WindowOf(fl, id), now) + [now]
    ensures r.1 <==> |r.0[id]| <= MaxUpdates
  {
    var v := Observe(WindowOf(fl, id), now);
    ObserveWindow(WindowOf(fl, id), now);
    (fl[id := v.window], v.admitted)
  }

  predicate Sorted(w: seq<int>) {
    forall i, j :: 0 <= i < j < |w| ==> w[i] <= w[j]
  }

  /** With a clock that does not run backwards, windows stay in time order. */
  lemma ObserveSorted(w: seq<int>, now: int)
    requires Sorted(w)
    requires forall k :: 0 <= k < |w| ==> w[k] <= now
    ensures Sorted(Observe(w, now).window)
  {
    var p := Prune(w, now);
    PruneSorted(w, now);
    ObserveWindow(w, now);
    forall k | 0 <= k < |p|
      ensures p[k] in w
    {
      assert p[k] in p;
    }
  }

  /** Pruning keeps a sorted window sorted. */
  lemma {:induction false} PruneSorted(w: seq<int>, now: int)
    requires Sorted(w)
    ensures Sorted(Prune(w, now))
    decreases |w|
  {
    if |w| > 0 {
      PruneSorted(w[1..], now);
      var rest := Prune(w[1..], now);
      forall k | 0 <= k < |rest|
        ensures rest[k] in w[1..]
      {
        assert rest[k] in rest;
      }
    }
  }

  /** The admission verdicts for updates arriving at `times`, starting from the
      window `w`. */
  function Run(w: seq<int>, times: seq<int>): (verdicts: seq<bool>)
    ensures |verdicts| == |times|
    decreases |times|
  {
    if |times| == 0 then []
    else
      var v := Observe(w, times[0]);
      [v.admitted] + Run(v.window, times[1..])
  }

  /** No two of the times (nor a time and an earlier window entry) are a window
      apart. */
  predicate Burst(w: seq<int>, times: seq<int>) {
    && (forall i, k :: 0 <= i < |times| && 0 <= k < |w| ==> Recent(w[k], times[i]))
    && (forall i, j :: 0 <= j <= i < |times| ==> Recent(times[j], times[i]))
  }

  /** Inside a burst every update stays in the window, so the n-th update is
      admitted exactly when at most 15 updates, counting itself, are in it. */
  lemma {:induction false} BurstVerdicts(w: seq<int>, times: seq<int>)
    requires Burst(w, times)
    ensures forall n :: 0 <= n < |times| ==> (Run(w, times)[n] <==> |w| + n + 1 <= MaxUpdates)
    decreases |times|
  {
    if |times| > 0 {
      var now := times[0];
      PruneKeepsRecent(w, now);
      ObserveWindow(w, now);
      var w' := w + [now];
      BurstShift(w, times);
      BurstVerdicts(w', times[1..]);
      var rest := Run(w', times[1..]);
      assert Run(w, times) == [|w| + 1 <= MaxUpdates] + rest;
      forall n | 0 <= n < |times|
        ensures Run(w, times)[n] <==> |w| + n + 1 <= MaxUpdates
      {
        if n > 0 {
          assert Run(w, times)[n] == rest[n - 1];
        }
      }
    }
  }

  /** After the first update of a burst, the rest is a burst against the window
      that now ends with it. */
  lemma BurstShift(w: seq<int>, times: seq<int>)
    requires Burst(w, times) && |times| > 0
    ensures Burst(w + [times[0]], times[1..])
  {
    var w' := w + [times[0]];
    forall i, k | 0 <= i < |times| - 1 && 0 <= k < |w'|
      ensures Recent(w'[k], times[1..][i])
    {
      if k == |w| {
        assert Recent(times[0], times[i + 1]);
      }
    }
  }

  /** Sixteen updates within one window from a fresh identity: the first fifteen are
      admitted and the sixteenth is dropped. */
  lemma SixteenthSuppressed(times: seq<int>)
    requires |times| == 16
    requires forall i, j :: 0 <= j <= i < 16 ==> Recent(times[j], times[i])
    ensures forall n :: 0 <= n < 15 ==> Run([], times)[n]
    ensures !Run([], times)[15]
  {
    BurstVerdicts([], times);
  }
}

=== FILE: inline.dfy ===
/** The inline-query answer. Unlike the main handler this is not first-match-wins:
    the anime rule and the translate rule are tested independently, so both can
    contribute, and the AI answer is added only when neither did. */
module Inline {
  import opened JsString
  import opened Respond

  /** An entry of the answer list: a picture, or an article with a title and the
      message text it would send. */
  datatype Result =
    | PhotoResult(id: string, photoUrl: string, thumbUrl: string)
    | Article(id: string, title: string, messageText: string)

  const TranslatePrefixLength: nat := 10

  /** The anime entry; its picture and its thumbnail come from two separate calls
      to the picture service. */
  function AnimeEntry(svc: Services): Result {
    PhotoResult("1", OrElse(svc.anime(0), AnimeFallback), OrElse(svc.anime(1), AnimeFallback))
  }

  /** The translation entry, for the lowercased query after its first ten
      characters. */
  function TranslateEntry(q: string, svc: Services): Result
    requires |q| >= TranslatePrefixLength
  {
    Article("2", "Translate", TranslatePrefix + OrElse(svc.translate(q[TranslatePrefixLength..]), TranslateFallback))
  }

  /** The AI entry, for the whole lowercased query. */
  function AssistEntry(q: string, svc: Services): Result {
    Article("3", "AI Reply", OrElse(svc.assist(q), AssistFallback))
  }

  /** The entries answered to the query `query`, in order. */
  function Answer(query: string, svc: Services): (r: seq<Result>)
    ensures 1 <= |r| <= 2
    ensures r[0] == AnimeEntry(svc) <==> exists i :: OccursAt(ToLower(query), "anime", i)
    ensures (exists k :: 0 <= k < |r| && r[k].id == "2") <==> StartsWith(ToLower(query), "translate ")
    ensures (exists k :: 0 <= k < |r| && r[k].id == "3") <==>
      !(exists i :: OccursAt(ToLower(query), "anime", i)) && !StartsWith(ToLower(query), "translate ")
    ensures forall k :: 0 <= k < |r| && r[k].id == "2" ==> r[k] == TranslateEntry(ToLower(query), svc)
    ensures forall k :: 0 <= k < |r| && r[k].id == "3" ==> r == [AssistEntry(ToLower(query), svc)]
    ensures forall k :: 0 <= k < |r| ==>
      || r[k] == AnimeEntry(svc)
      || r[k] == AssistEntry(ToLower(query), svc)
      || (StartsWith(ToLower(query), "translate ") && r[k] == TranslateEntry(ToLower(query), svc))
  {
    var q := ToLower(query);
    var anime := if Contains(q, "anime") then [AnimeEntry(svc)] else [];
    var translate := if StartsWith(q, "translate ") then [TranslateEntry(q, svc)] else [];
    if anime + translate == [] then [AssistEntry(q, svc)]
    else
      assert translate != [] ==> (anime + translate)[|anime|] == translate[0];
      anime + translate
  }

  /** The order in which the rules add their entries. */
  function Position(r: Result): nat {
    if r.id == "1" then 0 else if r.id == "2" then 1 else 2
  }

  /** Entries come in rule order: the anime entry before the translation entry,
      and the AI entry only on its own. Each entry appears at most once. */
  lemma AnswerOrdered(query: string, svc: Services)
    ensures var r := Answer(query, svc);
      forall j, k :: 0 <= j < k < |r| ==> Position(r[j]) < Position(r[k])
  {
  }

  /** When the query both mentions anime and starts with `translate `, the answer
      has both entries, the anime one first. */
  lemma BothRules(query: string, svc: Services)
    requires Contains(ToLower(query), "anime") && StartsWith(ToLower(query), "translate ")
    ensures Answer(query, svc) == [AnimeEntry(svc), TranslateEntry(ToLower(query), svc)]
  {
  }

  /** `Translate Anime` gets both entries inline, where the main handler answers
      with the anime picture only. */
  lemma TranslateAnimeBoth(svc: Services)
    ensures Answer("Translate Anime", svc) == [AnimeEntry(svc), TranslateEntry("translate anime", svc)]
  {
    var q := ToLower("Translate Anime");
    assert q == "translate anime";
    assert OccursAt(q, "anime", 10) by {
      assert q[10..15] == "anime";
    }
    assert q[..10] == "translate ";
    BothRules("Translate Anime", svc);
  }

  /** The AI entry answers the whole lowercased query with the assistant's text, or
      its fallback when the call failed. */
  lemma AssistAnswer(query: string, svc: Services)
    requires !Contains(ToLower(query), "anime") && !StartsWith(ToLower(query), "translate ")
    ensures Answer(query, svc) == [Article("3", "AI Reply", OrElse(svc.assist(ToLower(query)), AssistFallback))]
  {
  }
}

=== FILE: jsnumber.dfy ===
/** JavaScript's conversion of a string to a Number (StringToNumber, section 7.1.4.1.1
    of ECMAScript 2023, which unary `+` applies to a string) and ToIntegerOrInfinity
    (section 7.1.5), plus decimal rendering of a natural number. Finite Number values
    are kept as exact reals. */
module JsNumber {
  import opened JsString

  /** A Number value: NaN, an infinity, or a finite value. */
  datatype Num = NaN | PosInf | NegInf | Finite(v: real)

  /** The result of ToIntegerOrInfinity: an integer or an infinity. */
  datatype ExtInt = NegInfinity | Int(n: int) | PosInfinity

  /** The value of `c` as a digit of base 2, 8, 10 or 16 (letters in either case). */
  function DigitValue(c: char): Option<nat> {
    if '0' <= c <= '9' then Some(c as int - '0' as int)
    else if 'a' <= c <= 'f' then Some(c as int - 'a' as int + 10)
    else if 'A' <= c <= 'F' then Some(c as int - 'A' as int + 10)
    else None
  }

  predicate IsDigitOf(c: char, base: nat) {
    DigitValue(c).Some? && DigitValue(c).value < base
  }

  predicate AllDigitsOf(s: string, base: nat) {
    forall k :: 0 <= k < |s| ==> IsDigitOf(s[k], base)
  }

  /** The number written by the digits `s` in base `base`, most significant first. */
  function ValueIn(s: string, base: nat): nat
    requires AllDigitsOf(s, base)
  {
    if |s| == 0 then 0
    else ValueIn(s[..|s| - 1], base) * base + DigitValue(s[|s| - 1]).value
  }

  /** `v` times ten to the power `e`, for any integer `e`. */
  function Scale(v: real, e: int): real
    decreases if e >= 0 then e else -e
  {
    if e == 0 then v
    else if e > 0 then 10.0 * Scale(v, e - 1)
    else Scale(v, e + 1) / 10.0
  }

  /** The end of the run of base-`base` digits of `s` that starts at `i`. */
  function DigitsEnd(s: string, i: nat, base: nat): (e: nat)
    requires i <= |s|
    ensures i <= e <= |s|
    ensures AllDigitsOf(s[i..e], base)
    ensures e == |s| || !IsDigitOf(s[e], base)
    decreases |s| - i
  {
    if i == |s| || !IsDigitOf(s[i], base) then i
    else
      var e := DigitsEnd(s, i + 1, base);
      assert s[i..e] == [s[i]] + s[i + 1..e];
      e
  }

  /** A run of digits that reaches the end of the string ends there. */
  lemma {:induction false} DigitsRunToEnd(s: string, i: nat, base: nat)
    requires i <= |s|
    requires forall k :: i <= k < |s| ==> IsDigitOf(s[k], base)
    ensures DigitsEnd(s, i, base) == |s|
    decreases |s| - i
  {
    if i < |s| {
      DigitsRunToEnd(s, i + 1, base);
    }
  }

  /** The base a `0x`, `0o` or `0b` prefix announces, by its letter. */
  function RadixOf(c: char): Option<nat> {
    if c == 'x' || c == 'X' then Some(16)
    else if c == 'o' || c == 'O' then Some(8)
    else if c == 'b' || c == 'B' then Some(2)
    else None
  }

  function Negate(n: Num): Num {
    match n
    case Finite(v) => Finite(-v)
    case PosInf => NegInf
    case NegInf => PosInf
    case NaN => NaN
  }

  /** A decimal integer with an optional sign, as the exponent of a literal. */
  function SignedInteger(r: string): Option<int> {
    if |r| > 0 && (r[0] == '+' || r[0] == '-') then
      var d := r[1..];
      if |d| > 0 && AllDigitsOf(d, 10) then
        var v: int := ValueIn(d, 10);
        Some(if r[0] == '-' then -v else v)
      else None
    else if |r| > 0 && AllDigitsOf(r, 10) then Some(ValueIn(r, 10))
    else None
  }

  /** An optional exponent part `e`/`E` followed by a signed integer. */
  function ExponentPart(r: string): Option<int> {
    if |r| == 0 then Some(0)
    else if r[0] == 'e' || r[0] == 'E' then SignedInteger(r[1..])
    else None
  }

  /** The mantissa of a decimal literal: its digits with the point taken out, how
      many of them follow the point, and where the exponent part begins. */
  datatype Mantissa = Mantissa(digits: string, fractionLength: nat, end: nat)

  /** Digits, an optional point and more digits, with at least one digit on either
      side of the point. */
  function ReadMantissa(u: string): (m: Option<Mantissa>)
    ensures m.Some? ==> AllDigitsOf(m.value.digits, 10) && m.value.end <= |u|
  {
    var a := DigitsEnd(u, 0, 10);
    assert u[..a] == u[0..a];
    if a < |u| && u[a] == '.' then
      var p := DigitsEnd(u, a + 1, 10);
      if a == 0 && p == a + 1 then None
      else Some(Mantissa(u[..a] + u[a + 1..p], p - (a + 1), p))
    else if a == 0 then None
    else Some(Mantissa(u[..a], 0, a))
  }

  /** StrUnsignedDecimalLiteral: `Infinity`, or a mantissa with an optional
      exponent. */
  function UnsignedDecimal(u: string): Option<Num> {
    if u == "Infinity" then Some(PosInf)
    else
      match ReadMantissa(u)
      case None => None
      case Some(m) =>
        match ExponentPart(u[m.end..])
        case None => None
        case Some(e) => Some(Finite(Scale(ValueIn(m.digits, 10) as real, e - m.fractionLength)))
  }

  /** StrNumericLiteral: a non-decimal integer literal or a signed decimal one. */
  function NumericLiteral(t: string): Option<Num> {
    if |t| >= 2 && t[0] == '0' && RadixOf(t[1]).Some? then
      var base := RadixOf(t[1]).value;
      var body := t[2..];
      if |body| > 0 && AllDigitsOf(body, base) then Some(Finite(ValueIn(body, base) as real))
      else None
    else if |t| > 0 && t[0] == '+' then UnsignedDecimal(t[1..])
    else if |t| > 0 && t[0] == '-' then
      match UnsignedDecimal(t[1..])
      case Some(n) => Some(Negate(n))
      case None => None
    else UnsignedDecimal(t)
  }

  /** StringToNumber: white space around the literal is ignored, a blank string is 0,
      and anything that is not a numeric literal is NaN. */
  function StringToNumber(s: string): Num {
    var t := Trim(s);
    if |t| == 0 then Finite(0.0)
    else
      match NumericLiteral(t)
      case Some(n) => n
      case None => NaN
  }

  /** Number subtraction of one. */
  function MinusOne(n: Num): Num {
    match n
    case Finite(v) => Finite(v - 1.0)
    case _ => n
  }

  /** The integer part of `x`, rounding toward zero. */
  function Truncate(x: real): (n: int)
    ensures 0.0 <= x ==> 0 <= n && n as real <= x < n as real + 1.0
    ensures x < 0.0 ==> n <= 0 && n as real - 1.0 < x <= n as real
  {
    if x >= 0.0 then x.Floor else -((-x).Floor)
  }

  /** ToIntegerOrInfinity: NaN becomes 0, infinities stay, finite values truncate. */
  function ToIntegerOrInfinity(n: Num): (r: ExtInt)
    ensures n.NaN? ==> r == Int(0)
    ensures r.PosInfinity? <==> n.PosInf?
    ensures r.NegInfinity? <==> n.NegInf?
    ensures n.Finite? && 0.0 <= n.v ==> r.Int? && 0 <= r.n && r.n as real <= n.v < r.n as real + 1.0
    ensures n.Finite? && n.v < 0.0 ==> r.Int? && r.n <= 0 && r.n as real - 1.0 < n.v <= r.n as real
  {
    match n
    case NaN => Int(0)
    case PosInf => PosInfinity
    case NegInf => NegInfinity
    case Finite(v) => Int(Truncate(v))
  }

  function DigitChar(d: nat): (c: char)
    requires d < 10
    ensures IsDigit(c) && DigitValue(c) == Some(d)
  {
    ('0' as int + d) as char
  }

  /** `String(n)` for a natural number: its decimal digits without leading zeros. */
  function NatToString(n: nat): (s: string)
    ensures |s| >= 1 && AllDigits(s)
    ensures s[0] == '0' ==> n == 0
  {
    if n < 10 then [DigitChar(n)] else NatToString(n / 10) + [DigitChar(n % 10)]
  }

  /** Decimal digits are exactly the base-10 digits. */
  lemma DecimalDigits(s: string)
    requires AllDigits(s)
    ensures AllDigitsOf(s, 10)
  {
  }

  /** Reading back the decimal rendering of `n` gives `n`. */
  lemma {:induction false} NatToStringValue(n: nat)
    ensures AllDigitsOf(NatToString(n), 10)
    ensures ValueIn(NatToString(n), 10) == n
  {
    var s := NatToString(n);
    DecimalDigits(s);
    if n >= 10 {
      NatToStringValue(n / 10);
      assert s[..|s| - 1] == NatToString(n / 10);
    }
  }

  /** Decimal digits without a leading zero have a positive value. */
  lemma {:induction false} LeadingDigitPositive(d: string)
    requires |d| >= 1 && AllDigitsOf(d, 10) && d[0] != '0'
    ensures ValueIn(d, 10) >= 1
    decreases |d|
  {
    if |d| > 1 {
      LeadingDigitPositive(d[..|d| - 1]);
    }
  }

  /** `String(n)` is the only way to write `n` in decimal without leading zeros. */
  lemma {:induction false} CanonicalDigits(d: string)
    requires |d| >= 1 && AllDigitsOf(d, 10)
    requires |d| > 1 ==> d[0] != '0'
    ensures NatToString(ValueIn(d, 10)) == d
    decreases |d|
  {
    var last := d[|d| - 1];
    var v := DigitValue(last).value;
    assert DigitChar(v) == last;
    if |d| > 1 {
      var p := d[..|d| - 1];
      CanonicalDigits(p);
      LeadingDigitPositive(p);
      var n := ValueIn(d, 10);
      assert n == ValueIn(p, 10) * 10 + v;
      assert n / 10 == ValueIn(p, 10) && n % 10 == v;
      assert d == p + [last];
    }
  }

  /** A non-empty string of decimal digits converts to its decimal value. */
  lemma DigitStringValue(d: string)
    requires |d| >= 1 && AllDigits(d)
    ensures AllDigitsOf(d, 10)
    ensures StringToNumber(d) == Finite(ValueIn(d, 10) as real)
  {
    DecimalDigits(d);
    assert !IsSpace(d[0]) && !IsSpace(d[|d| - 1]);
    TrimKeeps(d);
    DigitsLiteral(d);
  }

  /** A non-empty string of decimal digits is a numeric literal for its value. */
  lemma DigitsLiteral(d: string)
    requires |d| >= 1 && AllDigitsOf(d, 10)
    ensures NumericLiteral(d) == Some(Finite(ValueIn(d, 10) as real))
  {
    assert IsDigitOf(d[0], 10);
    if |d| >= 2 {
      assert IsDigitOf(d[1], 10);
      assert RadixOf(d[1]).None?;
    }
    assert NumericLiteral(d) == UnsignedDecimal(d);
    DigitsUnsigned(d);
  }

  /** A non-empty string of decimal digits is an unsigned decimal literal without
      fraction or exponent. */
  lemma DigitsUnsigned(d: string)
    requires |d| >= 1 && AllDigitsOf(d, 10)
    ensures UnsignedDecimal(d) == Some(Finite(ValueIn(d, 10) as real))
  {
    assert d != "Infinity" by {
      assert IsDigitOf(d[0], 10);
      assert "Infinity"[0] == 'I';
    }
    DigitsRunToEnd(d, 0, 10);
    assert d[..|d|] == d;
    assert ReadMantissa(d) == Some(Mantissa(d, 0, |d|));
    assert ExponentPart(d[|d|..]) == Some(0);
  }

  /** The decimal rendering of `n` converts back to `n`. */
  lemma NatToStringNumber(n: nat)
    ensures StringToNumber(NatToString(n)) == Finite(n as real)
  {
    NatToStringValue(n);
    DigitStringValue(NatToString(n));
  }

  /** A string of white space alone converts to 0. */
  lemma BlankIsZero(s: string)
    requires forall k :: 0 <= k < |s| ==> IsSpace(s[k])
    ensures StringToNumber(s) == Finite(0.0)
  {
  }

  /** A literal that starts with a character no numeric literal can start with is
      NaN. */
  lemma NotANumeral(s: string)
    requires |Trim(s)| > 0
    requires var c := Trim(s)[0]; !IsDigit(c) && c != '+' && c != '-' && c != '.' && c != 'I'
    ensures StringToNumber(s) == NaN
  {
    var t := Trim(s);
    assert t[..0] == "";
    assert DigitsEnd(t, 0, 10) == 0;
  }
}

=== FILE: jsstring.dfy ===
/** The JavaScript string operations the bot relies on (`toLowerCase`, `includes`,
    `startsWith`, `split`, `join`, `trim`), on strings of Unicode scalar values. */
module JsString {

  datatype Option<+T> = None | Some(value: T)

  /** LineTerminator of ECMAScript section 12.3: what `.` in a regular expression
      refuses to match. */
  predicate IsLineTerminator(c: char) {
    c == '\n' || c == '\r' || c == '\U{2028}' || c == '\U{2029}'
  }

  /** WhiteSpace or LineTerminator of ECMAScript sections 12.2 and 12.3: the class
      `\s` matches, and what `trim` and `Number(...)` strip. */
  predicate IsSpace(c: char) {
    || IsLineTerminator(c)
    || c == '\t' || c == '\U{000B}' || c == '\U{000C}' || c == ' '
    || c == '\U{00A0}' || c == '\U{1680}' || ('\U{2000}' <= c <= '\U{200A}')
    || c == '\U{202F}' || c == '\U{205F}' || c == '\U{3000}' || c == '\U{FEFF}'
  }

  predicate IsDigit(c: char) {
    '0' <= c <= '9'
  }

  predicate AllDigits(s: string) {
    forall k :: 0 <= k < |s| ==> IsDigit(s[k])
  }

  function LowerChar(c: char): char {
    if 'A' <= c <= 'Z' then (c as int + 32) as char else c
  }

  /** `s.toLowerCase()`, for the Latin capitals A-Z. */
  function ToLower(s: string): (r: string)
    ensures |r| == |s|
    ensures forall k :: 0 <= k < |s| ==> r[k] == LowerChar(s[k])
  {
    seq(|s|, k requires 0 <= k < |s| => LowerChar(s[k]))
  }

  /** Lowercasing leaves text without capital letters as it is. */
  lemma ToLowerKeeps(s: string)
    requires forall k :: 0 <= k < |s| ==> !('A' <= s[k] <= 'Z')
    ensures ToLower(s) == s
  {
  }

  /** `s.startsWith(p)`. */
  predicate StartsWith(s: string, p: string) {
    |p| <= |s| && s[..|p|] == p
  }

  /** `s` starts with `p` exactly when it is `p` followed by the rest of `s`. */
  lemma StartsWithSplits(s: string, p: string)
    ensures StartsWith(s, p) <==> |p| <= |s| && s == p + s[|p|..]
    ensures StartsWith(p + s, p)
  {
    assert (p + s)[..|p|] == p;
    if |p| <= |s| && s == p + s[|p|..] {
      assert s[..|p|] == (p + s[|p|..])[..|p|];
    }
  }

  /** `p` occurs in `s` at position `i`. */
  ghost predicate OccursAt(s: string, p: string, i: int) {
    0 <= i <= |s| - |p| && s[i..i + |p|] == p
  }

  /** `s.includes(p)`, computed by scanning from the left. */
  function Contains(s: string, p: string): (b: bool)
    ensures b <==> exists i :: OccursAt(s, p, i)
    decreases |s|
  {
    if |s| < |p| then false
    else if s[..|p|] == p then (assert OccursAt(s, p, 0); true)
    else (ShiftOccurrence(s, p); Contains(s[1..], p))
  }

  /** An occurrence in `s` is at position 0 or is an occurrence in `s[1..]`. */
  lemma ShiftOccurrence(s: string, p: string)
    requires |s| >= 1
    ensures (exists i :: OccursAt(s, p, i)) <==> OccursAt(s, p, 0) || exists i :: OccursAt(s[1..], p, i)
  {
    if i :| OccursAt(s, p, i) {
      if i > 0 {
        assert s[1..][i - 1..i - 1 + |p|] == s[i..i + |p|];
        assert OccursAt(s[1..], p, i - 1);
      }
    }
    if i :| OccursAt(s[1..], p, i) {
      assert s[1..][i..i + |p|] == s[i + 1..i + 1 + |p|];
      assert OccursAt(s, p, i + 1);
    }
  }

  /** The first position of `c` in `s`, or `|s|` when there is none. */
  function IndexOfChar(s: string, c: char): (i: nat)
    ensures i <= |s|
    ensures i < |s| ==> s[i] == c
    ensures c !in s[..i]
  {
    if |s| == 0 then 0
    else if s[0] == c then 0
    else 1 + IndexOfChar(s[1..], c)
  }

  /** `s.split(sep)` for a one-character separator: the maximal separator-free
      pieces, empty ones included. */
  function Split(s: string, sep: char): (parts: seq<string>)
    ensures |parts| >= 1
    ensures forall k :: 0 <= k < |parts| ==> sep !in parts[k]
    decreases |s|
  {
    var i := IndexOfChar(s, sep);
    if i == |s| then [s] else [s[..i]] + Split(s[i + 1..], sep)
  }

  /** `parts.join(sep)`; an empty array joins to the empty string. */
  function Join(parts: seq<string>, sep: string): string
  {
    if |parts| == 0 then ""
    else if |parts| == 1 then parts[0]
    else parts[0] + sep + Join(parts[1..], sep)
  }

  /** Splitting at the first separator peels off the piece before it. */
  lemma SplitFirst(a: string, sep: char, b: string)
    requires sep !in a
    ensures Split(a + [sep] + b, sep) == [a] + Split(b, sep)
  {
    var s := a + [sep] + b;
    var i := IndexOfChar(s, sep);
    assert s[|a|] == sep;
    assert s[..i] == a;
    assert s[i + 1..] == b;
  }

  /** Joining the pieces of a split gives back the string. */
  lemma {:induction false} JoinSplit(s: string, sep: char)
    ensures Join(Split(s, sep), [sep]) == s
    decreases |s|
  {
    var i := IndexOfChar(s, sep);
    if i < |s| {
      var rest := s[i + 1..];
      calc {
        Join(Split(s, sep), [sep]);
        { SplitAtFirst(s, sep); }
        Join([s[..i]] + Split(rest, sep), [sep]);
        { JoinCons(s[..i], Split(rest, sep), [sep]); }
        s[..i] + [sep] + Join(Split(rest, sep), [sep]);
        { JoinSplit(rest, sep); }
        s[..i] + [sep] + rest;
        { assert s[i] == sep; }
        s;
      }
    }
  }

  /** A string with a separator splits into the piece before its first
      occurrence and the split of what follows. */
  lemma SplitAtFirst(s: string, sep: char)
    requires IndexOfChar(s, sep) < |s|
    ensures Split(s, sep) == [s[..IndexOfChar(s, sep)]] + Split(s[IndexOfChar(s, sep) + 1..], sep)
  {
  }

  lemma JoinCons(a: string, tail: seq<string>, sep: string)
    requires |tail| >= 1
    ensures Join([a] + tail, sep) == a + sep + Join(tail, sep)
  {
    var parts := [a] + tail;
    assert parts[0] == a && parts[1..] == tail;
  }

  /** Splitting a join of separator-free pieces gives back the pieces. */
  lemma {:induction false} SplitJoin(parts: seq<string>, sep: char)
    requires |parts| >= 1
    requires forall k :: 0 <= k < |parts| ==> sep !in parts[k]
    ensures Split(Join(parts, [sep]), sep) == parts
    decreases |parts|
  {
    if |parts| == 1 {
      var s := parts[0];
      assert IndexOfChar(s, sep) == |s|;
    } else {
      SplitJoin(parts[1..], sep);
      SplitFirst(parts[0], sep, Join(parts[1..], [sep]));
      assert parts[0] + [sep] + Join(parts[1..], [sep]) == Join(parts, [sep]);
      assert parts == [parts[0]] + parts[1..];
    }
  }

  /** The end of the run of white space that starts at `i`. */
  function SpaceEnd(s: string, i: nat): (e: nat)
    requires i <= |s|
    ensures i <= e <= |s|
    ensures forall x :: i <= x < e ==> IsSpace(s[x])
    ensures e == |s| || !IsSpace(s[e])
    decreases |s| - i
  {
    if i == |s| || !IsSpace(s[i]) then i else SpaceEnd(s, i + 1)
  }

  /** The start of the run of white space that ends at `j`. */
  function SpaceStart(s: string, j: nat): (b: nat)
    requires j <= |s|
    ensures b <= j
    ensures forall x :: b <= x < j ==> IsSpace(s[x])
    ensures b == 0 || !IsSpace(s[b - 1])
  {
    if j == 0 || !IsSpace(s[j - 1]) then j else SpaceStart(s, j - 1)
  }

  /** `s.trim()`: the slice of `s` left after dropping white space at both ends. */
  function Trim(s: string): (r: string)
    ensures |r| == 0 || (!IsSpace(r[0]) && !IsSpace(r[|r| - 1]))
    ensures exists a :: TrimmedAt(s, r, a)
  {
    var a := SpaceEnd(s, 0);
    if a == |s| then
      assert TrimmedAt(s, [], 0);
      []
    else
      var b := SpaceStart(s, |s|);
      assert !IsSpace(s[a]);
      assert TrimmedAt(s, s[a..b], a);
      s[a..b]
  }

  /** Text that neither starts nor ends with white space is its own trim. */
  lemma TrimKeeps(s: string)
    requires |s| >= 1 && !IsSpace(s[0]) && !IsSpace(s[|s| - 1])
    ensures Trim(s) == s
  {
    assert SpaceEnd(s, 0) == 0;
    assert SpaceStart(s, |s|) == |s|;
    assert s[0..|s|] == s;
  }

  /** `r` is `s[a..a + |r|]` and everything of `s` around it is white space. */
  ghost predicate TrimmedAt(s: string, r: string, a: int) {
    && 0 <= a <= a + |r| <= |s|
    && r == s[a..a + |r|]
    && (forall k :: 0 <= k < a ==> IsSpace(s[k]))
    && (forall k :: a + |r| <= k < |s| ==> IsSpace(s[k]))
  }
}

=== FILE: patterns.dfy ===
/** The router's three regular expressions, `/cuaca\s+(.+)/`, `/translate\s+(.+)/`
    and `/remind(?:er)?\s+(\d+)\s+(.+)/`, as explicit searches. Each search finds
    the leftmost position where the whole pattern matches, and there the captures a
    backtracking matcher settles on first: greedy `\s+` and `.+` take as much as
    still lets the rest match. */
module Patterns {
  import opened JsString
  import JsNumber

  /** The end of the run of decimal digits that starts at `i`. */
  function DigitEnd(s: string, i: nat): (e: nat)
    requires i <= |s|
    ensures i <= e <= |s|
    ensures forall x :: i <= x < e ==> IsDigit(s[x])
    ensures e == |s| || !IsDigit(s[e])
    decreases |s| - i
  {
    if i == |s| || !IsDigit(s[i]) then i else DigitEnd(s, i + 1)
  }

  /** The run of digits the reminder pattern reads is the decimal digit run the
      Number conversion reads. */
  lemma {:induction false} DigitEndIsDecimalRun(s: string, i: nat)
    requires i <= |s|
    ensures DigitEnd(s, i) == JsNumber.DigitsEnd(s, i, 10)
    decreases |s| - i
  {
    if i < |s| {
      assert IsDigit(s[i]) <==> JsNumber.IsDigitOf(s[i], 10);
      if IsDigit(s[i]) {
        DigitEndIsDecimalRun(s, i + 1);
      }
    }
  }

  /** The end of the line that `i` is on: what a greedy `.+` from `i` reaches. */
  function LineEnd(s: string, i: nat): (e: nat)
    requires i <= |s|
    ensures i <= e <= |s|
    ensures forall x :: i <= x < e ==> !IsLineTerminator(s[x])
    ensures e == |s| || IsLineTerminator(s[e])
    decreases |s| - i
  {
    if i == |s| || IsLineTerminator(s[i]) then i else LineEnd(s, i + 1)
  }

  /** `\s+(.+)` matches `s[j..m]`, with the white space `s[j..k]` and the capture
      `s[k..m]`. */
  ghost predicate TailMatch(s: string, j: int, k: int, m: int) {
    && 0 <= j < k < m <= |s|
    && (forall x :: j <= x < k ==> IsSpace(s[x]))
    && (forall x :: k <= x < m ==> !IsLineTerminator(s[x]))
  }

  /** The match of `\s+(.+)` at `j` a backtracking matcher reaches first: the
      longest white space after which `.+` still matches, then the longest capture. */
  ghost predicate GreedyTail(s: string, j: int, k: int, m: int) {
    && TailMatch(s, j, k, m)
    && (forall k', m' :: TailMatch(s, j, k', m') ==> k' < k || (k' == k && m' <= m))
  }

  /** The last position in `(lo, hi]` that is not a line terminator. */
  function LastOnLine(s: string, lo: nat, hi: int): (r: Option<nat>)
    requires hi < |s|
    ensures r.Some? ==> lo < r.value <= hi && !IsLineTerminator(s[r.value])
    ensures r.Some? ==> forall x :: r.value < x <= hi ==> IsLineTerminator(s[x])
    ensures r.None? ==> forall x :: lo < x <= hi ==> IsLineTerminator(s[x])
    decreases hi - lo
  {
    if hi <= lo then None
    else if !IsLineTerminator(s[hi]) then Some(hi)
    else LastOnLine(s, lo, hi - 1)
  }

  /** Every match of `\s+(.+)` at `j` starts inside the white space run at `j`
      (or where it ends), on a character that is not a line terminator, and its
      capture ends no later than that line does. */
  lemma TailShape(s: string, j: nat, k: int, m: int)
    requires j <= |s|
    ensures TailMatch(s, j, k, m) ==>
      && j < SpaceEnd(s, j) && k <= SpaceEnd(s, j) && k < |s|
      && !IsLineTerminator(s[k]) && m <= LineEnd(s, k)
  {
    if TailMatch(s, j, k, m) {
      var e := SpaceEnd(s, j);
      assert IsSpace(s[j]);
      assert k <= e;
      assert m <= LineEnd(s, k);
    }
  }

  lemma TailShapes(s: string, j: nat)
    requires j <= |s|
    ensures forall k, m :: TailMatch(s, j, k, m) ==>
      && j < SpaceEnd(s, j) && k <= SpaceEnd(s, j) && k < |s|
      && !IsLineTerminator(s[k]) && m <= LineEnd(s, k)
  {
    forall k, m
      ensures TailMatch(s, j, k, m) ==>
        && j < SpaceEnd(s, j) && k <= SpaceEnd(s, j) && k < |s|
        && !IsLineTerminator(s[k]) && m <= LineEnd(s, k)
    {
      TailShape(s, j, k, m);
    }
  }

  /** `\s+(.+)` tried at `j`: the bounds `(k, m)` of the capture, or nothing when it
      does not match there. */
  function MatchTail(s: string, j: nat): (r: Option<(nat, nat)>)
    requires j <= |s|
    ensures r.Some? ==> GreedyTail(s, j, r.value.0, r.value.1)
    ensures r.None? ==> forall k, m :: !TailMatch(s, j, k, m)
  {
    TailShapes(s, j);
    var e := SpaceEnd(s, j);
    if e == j then None
    else
      var hi := if e < |s| then e else |s| - 1;
      match LastOnLine(s, j, hi)
      case None => None
      case Some(k) => Some((k, LineEnd(s, k)))
  }

  /** `\s+(.+)` matches at `j`. */
  ghost predicate TailMatches(s: string, j: int) {
    exists k, m :: TailMatch(s, j, k, m)
  }

  /** `kw` occurs at `i` and `\s+(.+)` matches right after it. */
  ghost predicate KeywordTailAt(s: string, kw: string, i: int) {
    && 0 <= i && i + |kw| <= |s| && s[i..i + |kw|] == kw
    && TailMatches(s, i + |kw|)
  }

  /** A match of `kw\s+(.+)`: where the keyword is and the capture bounds. */
  datatype Found = Found(at: nat, from: nat, to: nat)

  /** `kw\s+(.+)` tried at `i`: the capture bounds, or nothing when it does not
      match there. */
  function MatchKeywordAt(s: string, kw: string, i: nat): (r: Option<(nat, nat)>)
    requires i <= |s|
    ensures r.Some? <==> KeywordTailAt(s, kw, i)
    ensures r.Some? ==> GreedyTail(s, i + |kw|, r.value.0, r.value.1)
  {
    if i + |kw| <= |s| && s[i..i + |kw|] == kw then MatchTail(s, i + |kw|) else None
  }

  /** Searches `kw\s+(.+)` from position `i` on: the first position where it
      matches. */
  function FindKeywordTail(s: string, kw: string, i: nat): (r: Option<Found>)
    requires i <= |s|
    ensures r.Some? ==> i <= r.value.at <= |s|
    ensures r.Some? ==> MatchKeywordAt(s, kw, r.value.at) == Some((r.value.from, r.value.to))
    decreases |s| - i
  {
    match MatchKeywordAt(s, kw, i)
    case Some((k, m)) => Some(Found(i, k, m))
    case None => if i == |s| then None else FindKeywordTail(s, kw, i + 1)
  }

  /** The search passes over no position where `kw\s+(.+)` matches. */
  lemma {:induction false} KeywordTailNoneBefore(s: string, kw: string, i: nat)
    requires i <= |s|
    ensures var r := FindKeywordTail(s, kw, i);
      forall p :: i <= p <= |s| && (r.None? || p < r.value.at) ==> MatchKeywordAt(s, kw, p).None?
    decreases |s| - i
  {
    if MatchKeywordAt(s, kw, i).None? && i < |s| {
      KeywordTailNoneBefore(s, kw, i + 1);
    }
  }

  /** The search result is the leftmost match of `kw\s+(.+)` and, there, the
      capture a backtracking matcher takes. */
  lemma KeywordTailLeftmost(s: string, kw: string, i: nat)
    requires i <= |s|
    ensures var r := FindKeywordTail(s, kw, i);
      && (r.Some? ==> i <= r.value.at && KeywordTailAt(s, kw, r.value.at))
      && (r.Some? ==> GreedyTail(s, r.value.at + |kw|, r.value.from, r.value.to))
      && (r.Some? ==> forall p :: i <= p < r.value.at ==> !KeywordTailAt(s, kw, p))
      && (r.None? ==> forall p :: i <= p ==> !KeywordTailAt(s, kw, p))
  {
    var r := FindKeywordTail(s, kw, i);
    KeywordTailNoneBefore(s, kw, i);
    forall p | i <= p && (r.None? || p < r.value.at)
      ensures !KeywordTailAt(s, kw, p)
    {
      if p <= |s| {
        assert MatchKeywordAt(s, kw, p).None?;
      }
    }
  }

  /** The first capture of `/cuaca\s+(.+)/`, if the text matches. */
  function WeatherCity(txt: string): Option<string> {
    match FindKeywordTail(txt, "cuaca", 0)
    case Some(f) => Some(txt[f.from..f.to])
    case None => None
  }

  /** The first capture of `/translate\s+(.+)/`, if the text matches. */
  function TranslateText(txt: string): Option<string> {
    match FindKeywordTail(txt, "translate", 0)
    case Some(f) => Some(txt[f.from..f.to])
    case None => None
  }

  /** `remind(?:er)?\s+(\d+)\s+(.+)` matches at `i`: `q` ends the keyword, `s[q..e]`
      is white space, `s[e..d]` the digits, and `\s+(.+)` matches from `d` with
      the message `s[k..m]`. */
  ghost predicate RemindAt(s: string, i: int, q: int, e: int, d: int, k: int, m: int) {
    && 0 <= i && i + 6 <= |s| && s[i..i + 6] == "remind"
    && (q == i + 6 || (q == i + 8 && q <= |s| && s[i + 6..i + 8] == "er"))
    && q < e < d <= |s|
    && (forall x :: q <= x < e ==> IsSpace(s[x]))
    && (forall x :: e <= x < d ==> IsDigit(s[x]))
    && TailMatch(s, d, k, m)
  }

  ghost predicate RemindMatchesAt(s: string, i: int) {
    exists q, e, d, k, m :: RemindAt(s, i, q, e, d, k, m)
  }

  /** A reminder match: the digits `s[digitsFrom..digitsTo]` and the message
      `s[from..to]`. */
  datatype RemindFound = RemindFound(at: nat, digitsFrom: nat, digitsTo: nat, from: nat, to: nat)

  /** The keyword `remind`, with `er` after it when there is one: where it ends. */
  function KeywordEnd(s: string, i: nat): (q: nat)
    requires i + 6 <= |s|
    ensures q == i + 6 || q == i + 8
    ensures q <= |s|
    ensures q == i + 8 <==> i + 8 <= |s| && s[i + 6..i + 8] == "er"
  {
    if i + 8 <= |s| && s[i + 6..i + 8] == "er" then i + 8 else i + 6
  }

  /** Any reminder match at `i` ends its keyword, white space and digits exactly
      where the runs computed from `i` end. */
  lemma RemindShape(s: string, i: nat, q: int, e: int, d: int, k: int, m: int)
    requires i <= |s|
    ensures RemindAt(s, i, q, e, d, k, m) ==>
      && q == KeywordEnd(s, i) && e == SpaceEnd(s, q) && e < |s| && d == DigitEnd(s, e)
  {
    if RemindAt(s, i, q, e, d, k, m) {
      assert KeywordEnd(s, i) == i + 8 ==> s[i + 6] == 'e' by {
        if KeywordEnd(s, i) == i + 8 {
          assert s[i + 6] == s[i + 6..i + 8][0];
        }
      }
      assert q == i + 6 ==> IsSpace(s[i + 6]);
      assert q == KeywordEnd(s, i);
      assert IsDigit(s[e]) && !IsSpace(s[e]);
      assert e == SpaceEnd(s, q);
      assert IsSpace(s[d]);
      assert d == DigitEnd(s, e);
    }
  }

  lemma RemindShapes(s: string, i: nat)
    requires i <= |s|
    ensures forall q, e, d, k, m :: RemindAt(s, i, q, e, d, k, m) ==>
      && q == KeywordEnd(s, i) && e == SpaceEnd(s, q) && e < |s| && d == DigitEnd(s, e)
  {
    forall q, e, d, k, m
      ensures RemindAt(s, i, q, e, d, k, m) ==>
        && q == KeywordEnd(s, i) && e == SpaceEnd(s, q) && e < |s| && d == DigitEnd(s, e)
    {
      RemindShape(s, i, q, e, d, k, m);
    }
  }

  /** `remind(?:er)?\s+(\d+)\s+(.+)` tried at `i`. The optional `er` is taken when
      present: without it the `e` that follows would have to match `\s`. White
      space and digit runs are taken whole, since the next part cannot start on
      them; only the message capture is chosen among several. */
  function MatchRemindAt(s: string, i: nat): (r: Option<RemindFound>)
    requires i <= |s|
    ensures r.Some? ==> r.value.at == i
    ensures r.Some? ==> exists q :: RemindAt(s, i, q, r.value.digitsFrom, r.value.digitsTo, r.value.from, r.value.to)
    ensures r.Some? ==> GreedyTail(s, r.value.digitsTo, r.value.from, r.value.to)
    ensures r.Some? ==> RemindMatchesAt(s, i) && r.value.digitsFrom < r.value.digitsTo <= |s|
    ensures r.Some? ==> forall x :: r.value.digitsFrom <= x < r.value.digitsTo ==> IsDigit(s[x])
    ensures r.Some? ==> forall q, e, d, k, m :: RemindAt(s, i, q, e, d, k, m) ==> e == r.value.digitsFrom && d == r.value.digitsTo
    ensures r.None? ==> !RemindMatchesAt(s, i)
  {
    if !(i + 6 <= |s| && s[i..i + 6] == "remind") then None
    else
      RemindShapes(s, i);
      var q := KeywordEnd(s, i);
      var e := SpaceEnd(s, q);
      if e == q || e == |s| then None
      else
        var d := DigitEnd(s, e);
        if d == e then None
        else
          match MatchTail(s, d)
          case None => None
          case Some((k, m)) =>
            assert RemindAt(s, i, q, e, d, k, m);
            Some(RemindFound(i, e, d, k, m))
  }

  /** Searches `remind(?:er)?\s+(\d+)\s+(.+)` from position `i` on: the first
      position where it matches. */
  function FindRemind(s: string, i: nat): (r: Option<RemindFound>)
    requires i <= |s|
    ensures r.Some? ==> i <= r.value.at <= |s| && MatchRemindAt(s, r.value.at) == r
    ensures forall p :: i <= p <= |s| && (r.None? || p < r.value.at) ==> MatchRemindAt(s, p).None?
    decreases |s| - i
  {
    match MatchRemindAt(s, i)
    case Some(f) => Some(f)
    case None => if i == |s| then None else FindRemind(s, i + 1)
  }

  /** The search result is the leftmost reminder match, with the digits and the
      message capture a backtracking matcher takes there. */
  lemma RemindLeftmost(s: string, i: nat)
    requires i <= |s|
    ensures var r := FindRemind(s, i);
      && (r.Some? ==> i <= r.value.at && RemindMatchesAt(s, r.value.at))
      && (r.Some? ==> GreedyTail(s, r.value.digitsTo, r.value.from, r.value.to))
      && (r.Some? ==> r.value.digitsFrom < r.value.digitsTo <= |s|)
      && (r.Some? ==> forall x :: r.value.digitsFrom <= x < r.value.digitsTo ==> IsDigit(s[x]))
      && (r.Some? ==> forall p :: i <= p < r.value.at ==> !RemindMatchesAt(s, p))
      && (r.None? ==> forall p :: i <= p ==> !RemindMatchesAt(s, p))
  {
    var r := FindRemind(s, i);
    forall p | i <= p && (r.None? || p < r.value.at)
      ensures !RemindMatchesAt(s, p)
    {
      if p <= |s| {
        assert MatchRemindAt(s, p).None?;
      }
    }
  }

  /** After one white space character and a line that starts with something else,
      `\s+(.+)` captures exactly the rest of the line. */
  lemma {:induction false} SingleSpaceTail(s: string, j: nat)
    requires j + 1 < |s| && IsSpace(s[j]) && !IsSpace(s[j + 1])
    requires forall x :: j + 1 <= x < |s| ==> !IsLineTerminator(s[x])
    ensures MatchTail(s, j) == Some((j + 1, |s|))
  {
    assert TailMatch(s, j, j + 1, |s|);
    assert SpaceEnd(s, j + 1) == j + 1;
    assert SpaceEnd(s, j) == j + 1;
    TailShapes(s, j);
  }

  /** `kw\s+(.+)` on a text that is `kw`, one space and then a line that starts
      with something other than white space: the capture is that line. */
  lemma KeywordCapture(s: string, kw: string)
    requires |kw| + 1 < |s| && s[..|kw|] == kw && s[|kw|] == ' ' && !IsSpace(s[|kw| + 1])
    requires forall x :: |kw| + 1 <= x < |s| ==> !IsLineTerminator(s[x])
    ensures FindKeywordTail(s, kw, 0) == Some(Found(0, |kw| + 1, |s|))
  {
    SingleSpaceTail(s, |kw|);
    KeywordFirst(s, kw, |kw| + 1, |s|);
  }

  /** The shape `KeywordCapture` asks for, of `kw`, a space and a one-line text. */
  lemma KeywordThenLine(kw: string, text: string)
    requires |text| >= 1 && !IsSpace(text[0])
    requires forall x :: 0 <= x < |text| ==> !IsLineTerminator(text[x])
    ensures var s := kw + " " + text;
      && |kw| + 1 < |s| && s[..|kw|] == kw && s[|kw|] == ' ' && !IsSpace(s[|kw| + 1])
      && forall x :: |kw| + 1 <= x < |s| ==> !IsLineTerminator(s[x])
  {
    var s := kw + " " + text;
    assert s[..|kw|] == kw;
    forall x | |kw| + 1 <= x < |s|
      ensures !IsLineTerminator(s[x])
    {
      assert s[x] == text[x - |kw| - 1];
    }
  }

  /** Where the keyword starts the text and the tail matches after it, the search
      stops at once. */
  lemma KeywordFirst(s: string, kw: string, k: nat, m: nat)
    requires |kw| <= |s| && s[..|kw|] == kw
    requires MatchTail(s, |kw|) == Some((k, m))
    ensures FindKeywordTail(s, kw, 0) == Some(Found(0, k, m))
  {
  }

  /** `remind(?:er)?\s+(\d+)\s+(.+)` on a text that is the keyword, one space,
      the digits `s[|kw| + 1..d]`, one space and a line that starts with something
      other than white space: the captures are the digits and that line. */
  lemma RemindCapture(s: string, kw: string, d: nat)
    requires kw == "remind" || kw == "reminder"
    requires |kw| + 1 < d && d + 1 < |s| && s[..|kw|] == kw && s[|kw|] == ' '
    requires forall x :: |kw| + 1 <= x < d ==> IsDigit(s[x])
    requires s[d] == ' ' && !IsSpace(s[d + 1])
    requires forall x :: d + 1 <= x < |s| ==> !IsLineTerminator(s[x])
    ensures FindRemind(s, 0) == Some(RemindFound(0, |kw| + 1, d, d + 1, |s|))
  {
    var q := |kw|;
    RemindKeyword(s, kw);
    DigitRunTo(s, q + 1, d);
    RemindFirst(s, q, q + 1, d);
  }

  /** The keyword and the one space after it, as the runs see them. */
  lemma RemindKeyword(s: string, kw: string)
    requires kw == "remind" || kw == "reminder"
    requires |kw| + 1 < |s| && s[..|kw|] == kw && s[|kw|] == ' ' && IsDigit(s[|kw| + 1])
    ensures s[..6] == "remind" && KeywordEnd(s, 0) == |kw| && SpaceEnd(s, |kw|) == |kw| + 1
  {
    var q := |kw|;
    if kw == "remind" {
      assert s[6..8][0] == ' ';
    } else {
      assert s[..6] == s[..8][..6] && "reminder"[..6] == "remind";
      assert s[6..8] == s[..8][6..8] && "reminder"[6..8] == "er";
    }
    assert SpaceEnd(s, q + 1) == q + 1;
  }

  /** The shape `RemindCapture` asks for, of the keyword, a space, the digits, a
      space and a one-line message. */
  lemma RemindThenLine(kw: string, digits: string, msg: string)
    requires |digits| >= 1 && AllDigits(digits)
    requires |msg| >= 1 && !IsSpace(msg[0])
    requires forall x :: 0 <= x < |msg| ==> !IsLineTerminator(msg[x])
    ensures var s := kw + " " + digits + " " + msg; var d := |kw| + 1 + |digits|;
      && |kw| + 1 < d && d + 1 < |s| && s[..|kw|] == kw && s[|kw|] == ' '
      && (forall x :: |kw| + 1 <= x < d ==> IsDigit(s[x]))
      && s[d] == ' ' && !IsSpace(s[d + 1])
      && (forall x :: d + 1 <= x < |s| ==> !IsLineTerminator(s[x]))
  {
    var s := kw + " " + digits + " " + msg;
    var d := |kw| + 1 + |digits|;
    assert s[..|kw|] == kw;
    forall x | |kw| + 1 <= x < d
      ensures IsDigit(s[x])
    {
      assert s[x] == digits[x - |kw| - 1];
    }
    forall x | d + 1 <= x < |s|
      ensures !IsLineTerminator(s[x])
    {
      assert s[x] == msg[x - d - 1];
    }
  }

  /** Where the reminder pattern matches at the start with those runs, the search
      stops at once. */
  lemma RemindFirst(s: string, q: nat, e: nat, d: nat)
    requires 6 <= |s| && s[..6] == "remind" && KeywordEnd(s, 0) == q
    requires SpaceEnd(s, q) == e && q < e < |s| && DigitEnd(s, e) == d && e < d
    requires d + 1 < |s| && IsSpace(s[d]) && !IsSpace(s[d + 1])
    requires forall x :: d + 1 <= x < |s| ==> !IsLineTerminator(s[x])
    ensures FindRemind(s, 0) == Some(RemindFound(0, e, d, d + 1, |s|))
  {
    SingleSpaceTail(s, d);
    assert s[0..6] == s[..6];
  }

  /** A run of digits that ends on a non-digit is what `DigitEnd` finds. */
  lemma {:induction false} DigitRunTo(s: string, i: nat, d: nat)
    requires i <= d < |s| && !IsDigit(s[d])
    requires forall x :: i <= x < d ==> IsDigit(s[x])
    ensures DigitEnd(s, i) == d
    decreases d - i
  {
    if i < d {
      DigitRunTo(s, i + 1, d);
    }
  }
}

=== FILE: pipeline.dfy ===
/** One message update through the middleware chain, in registration order: the
    flood limiter, the `/start` handler, the contact handler, the verification
    gate and the main handler. Each handler that answers ends the chain. */
module Pipeline {
  import opened JsString
  import opened Updates
  import opened Session
  import opened Router
  import opened Respond
  import Flood
  import Todo

  /** The two per-identity registries: flood windows and sessions. */
  datatype State = State(flood: Flood.Windows, sessions: map<Flood.Identity, Session>)

  /** What one update did: the new state, the replies sent in order, the replies
      scheduled for later, and whether the update was deleted as flooding. */
  datatype Step = Step(state: State, replies: seq<Reply>, deferred: seq<Deferred>, deleted: bool)

  /** The session of an identity; one that was never seen has neither the flag nor
      the list set. */
  function SessionOf(st: State, id: Flood.Identity): (s: Session)
    ensures id in st.sessions ==> s == st.sessions[id]
    ensures id !in st.sessions ==> !s.verified && s.todos.None?
  {
    if id in st.sessions then st.sessions[id] else Unseen
  }

  /** Whether the main handler listens to the message: it carries a photo, a
      document or text. */
  predicate Routed(m: Message) {
    m.hasPhoto || m.document.Some? || m.text.Some?
  }

  /** Handles update `u` at time `now`, given the outcomes of the external calls. */
  function Process(st: State, u: Update, now: int, svc: Services): (r: Step)
    ensures forall id :: id != IdentityOf(u) ==> SessionOf(r.state, id) == SessionOf(st, id)
    ensures r.state.flood == Flood.Track(st.flood, IdentityOf(u), now).0
    ensures r.deleted <==> !Flood.Track(st.flood, IdentityOf(u), now).1
    ensures r.deleted ==> r.replies == [] && r.deferred == [] && r.state.sessions == st.sessions
  {
    var id := IdentityOf(u);
    var (fl, admitted) := Flood.Track(st.flood, id, now);
    if !admitted then Step(State(fl, st.sessions), [], [], true)
    else
      var s := SessionOf(st, id);
      var d := Dispatch(s, u, svc);
      var sessions := if d.session == s then st.sessions else st.sessions[id := d.session];
      Step(State(fl, sessions), d.replies, d.deferred, false)
  }

  /** Every update, suppressed or not, is recorded in its sender's flood window
      only; it is suppressed exactly when that window then holds more than 15
      entries. */
  lemma FloodFirst(st: State, u: Update, now: int, svc: Services)
    ensures var r := Process(st, u, now, svc);
      var w := Flood.Prune(Flood.WindowOf(st.flood, IdentityOf(u)), now) + [now];
      && r.state.flood[IdentityOf(u)] == w
      && (r.deleted <==> |w| > Flood.MaxUpdates)
      && forall id :: id in st.flood && id != IdentityOf(u) ==> id in r.state.flood && r.state.flood[id] == st.flood[id]
  {
  }

  /** What the handlers after the flood limiter do with an admitted update: the
      session afterwards, the replies, the replies scheduled for later. */
  datatype Dispatched = Dispatched(session: Session, replies: seq<Reply>, deferred: seq<Deferred>)

  /** The `/start` handler, the contact handler, the gate and the main handler, on
      the session of the update's sender. */
  function Dispatch(s: Session, u: Update, svc: Services): (d: Dispatched)
    ensures d.session.verified && !s.verified ==> u.message.contact == Some(Contact(Some(u.fromId)))
    ensures s.verified && !d.session.verified ==> IsStartCommand(u.message)
    ensures d.session.todos != s.todos ==> s.verified || IsStartCommand(u.message)
    ensures d.deferred != [] ==> s.verified
  {
    var m := u.message;
    if IsStartCommand(m) then
      var a := Start(s);
      Dispatched(a.session, [Text(a.reply)], [])
    else if m.contact.Some? then
      var a := ShareContact(s, m.contact.value, u.fromId);
      Dispatched(a.session, [Text(a.reply)], [])
    else if !Passes(s, m) then Dispatched(s, [Text(VerifyFirstReply)], [])
    else if !Routed(m) then Dispatched(s, [], [])
    else
      var i := Classify(m);
      match s.todos
      case Some(todos) =>
        var h := Handle(i, todos, svc);
        Dispatched(s.(todos := Some(h.todos)), h.replies, h.deferred)
      case None =>
        if i.TodoCmd? then
          var reply := Todo.HandleWithoutList(i.txt);
          Dispatched(s, if reply.Some? then [Text(reply.value)] else [], [])
        else
          var h := Handle(i, [], svc);
          Dispatched(s, h.replies, h.deferred)
  }

  /** An admitted `/start` re-arms verification and empties the to-do list, whatever
      the session was. */
  lemma StartResets(st: State, u: Update, now: int, svc: Services)
    requires !Process(st, u, now, svc).deleted && IsStartCommand(u.message)
    ensures var r := Process(st, u, now, svc);
      && SessionOf(r.state, IdentityOf(u)) == Fresh
      && r.replies == [Text(StartReply)]
  {
  }

  /** Verification changes only by an admitted `/start`, which clears it, or by an
      admitted share of the sender's own contact, which sets it. */
  lemma VerificationChanges(st: State, u: Update, now: int, svc: Services)
    ensures var r := Process(st, u, now, svc);
      var before := SessionOf(st, IdentityOf(u)).verified;
      var after := SessionOf(r.state, IdentityOf(u)).verified;
      && (before && !after ==> !r.deleted && IsStartCommand(u.message))
      && (!before && after ==> !r.deleted && u.message.contact == Some(Contact(Some(u.fromId))))
  {
  }

  /** The gate: an admitted update that is neither `/start` nor a contact share
      reaches the main handler exactly when the session is verified; otherwise the
      only reply is the request to verify first, and the session stays as it was. */
  lemma GateBlocks(st: State, u: Update, now: int, svc: Services)
    requires !Process(st, u, now, svc).deleted
    requires !IsStartCommand(u.message) && u.message.contact.None?
    requires !SessionOf(st, IdentityOf(u)).verified
    ensures var r := Process(st, u, now, svc);
      && r.replies == [Text(VerifyFirstReply)]
      && r.deferred == []
      && r.state.sessions == st.sessions
  {
    UnverifiedGate(SessionOf(st, IdentityOf(u)), u.message);
  }

  /** A verified session's message that carries no photo, document or text (a
      sticker, say) reaches no handler: nothing is replied and nothing changes. */
  lemma UnroutedSilent(st: State, u: Update, now: int, svc: Services)
    requires !Process(st, u, now, svc).deleted
    requires !IsStartCommand(u.message) && u.message.contact.None? && !Routed(u.message)
    requires SessionOf(st, IdentityOf(u)).verified
    ensures var r := Process(st, u, now, svc);
      && r.replies == []
      && r.deferred == []
      && r.state.sessions == st.sessions
  {
  }

  /** Routed messages in a verified session get what the main handler answers for
      their intent, and only the to-do list of the session can change. A session
      verified without a `/start` has no list: its to-do commands answer as
      `Todo.HandleWithoutList` says and store nothing, and its other messages are
      answered as with any list. */
  lemma VerifiedRoutes(st: State, u: Update, now: int, svc: Services)
    requires !Process(st, u, now, svc).deleted
    requires !IsStartCommand(u.message) && u.message.contact.None? && Routed(u.message)
    requires SessionOf(st, IdentityOf(u)).verified
    ensures var r := Process(st, u, now, svc);
      var s := SessionOf(st, IdentityOf(u));
      s.todos.Some? ==>
        var h := Handle(Classify(u.message), s.todos.value, svc);
        && r.replies == h.replies
        && r.deferred == h.deferred
        && SessionOf(r.state, IdentityOf(u)) == s.(todos := Some(h.todos))
    ensures var r := Process(st, u, now, svc);
      var s := SessionOf(st, IdentityOf(u));
      var i := Classify(u.message);
      s.todos.None? ==>
        && SessionOf(r.state, IdentityOf(u)) == s
        && (i.TodoCmd? ==> r.replies == (if Todo.HandleWithoutList(i.txt).Some? then [Text(Todo.HandleWithoutList(i.txt).value)] else []) && r.deferred == [])
        && (!i.TodoCmd? ==> r.replies == Handle(i, [], svc).replies && r.deferred == Handle(i, [], svc).deferred)
  {
  }
}

=== FILE: respond.dfy ===
/** What each capability replies. The network helpers are not modelled: each
    external call is an input that either yields a value or fails, and a failed
    call turns into the helper's fixed fallback text. */
module Respond {
  import opened JsString
  import opened JsNumber
  import opened Router
  import Todo

  datatype Reply = Text(body: string) | Photo(url: string, caption: string)

  /** A reply sent after a delay, in milliseconds. */
  datatype Deferred = Deferred(delayMs: nat, reply: Reply)

  /** How the two OCR steps went: fetching the file link, then recognising text. */
  datatype OcrResult = LinkFailed | RecognizeFailed | Recognized(text: string)

  /** A meme as the meme service describes it. */
  datatype MemeData = MemeData(url: string, title: string, nsfw: bool, spoiler: bool)

  /** The outcome of every external call an update can make; `None` is a call that
      failed. The anime picture service is indexed by call number, since an inline
      query calls it twice. */
  datatype Services = Services(
    ocr: OcrResult,
    anime: nat -> Option<string>,
    meme: Option<MemeData>,
    weather: string -> Option<string>,
    translate: string -> Option<string>,
    assist: string -> Option<string>,
    summarize: string -> Option<string>,
    paraphrase: string -> Option<string>)

  const AnimeFallback: string := "https://via.placeholder.com/500?text=Anime+Error"
  const MemeFallbackUrl: string := "https://via.placeholder.com/500?text=No+Meme"
  const MemeFallbackTitle: string := "No meme"
  const WeatherFallback: string := "Error cuaca"
  const TranslateFallback: string := "Error translate"
  const AssistFallback: string := "\U{1F916} Error AI"
  const SummaryFallback: string := "Error ringkasan"
  const ParaphraseFallback: string := "Error parafrase"

  const OcrProgress: string := "\U{1F50D} OCR processing..."
  const OcrPrefix: string := "\U{1F4C4} Hasil OCR:\n"
  const OcrFailed: string := "\U{26A0}\U{FE0F} OCR gagal."
  const SummaryPrefix: string := "\U{1F4DD} Ringkasan:\n"
  const ParaphrasePrefix: string := "\U{270D}\U{FE0F} Parafrase:\n"
  const AnimeCaption: string := "\U{2728} Anime!"
  const TranslatePrefix: string := "\U{1F310} "
  const ReminderSet: string := "\U{2705} Reminder disetel"
  const ReminderPrefix: string := "\U{23F0} "
  const AssistPrefix: string := "\U{1F916} "

  /** A call's value, or the fallback when it failed. */
  function OrElse(r: Option<string>, fallback: string): (s: string)
    ensures r.Some? ==> s == r.value
    ensures r.None? ==> s == fallback
  {
    if r.Some? then r.value else fallback
  }

  /** The meme to post: the service's, unless it failed or is marked nsfw or
      spoiler, in which case the placeholder. */
  function MemeOf(svc: Services): (r: (string, string))
    ensures r == (MemeFallbackUrl, MemeFallbackTitle) || (svc.meme.Some? && r == (svc.meme.value.url, svc.meme.value.title))
    ensures svc.meme.Some? && (svc.meme.value.nsfw || svc.meme.value.spoiler) ==> r == (MemeFallbackUrl, MemeFallbackTitle)
    ensures svc.meme.Some? && !svc.meme.value.nsfw && !svc.meme.value.spoiler ==> r == (svc.meme.value.url, svc.meme.value.title)
    ensures svc.meme.None? ==> r == (MemeFallbackUrl, MemeFallbackTitle)
  {
    match svc.meme
    case Some(d) => if d.nsfw || d.spoiler then (MemeFallbackUrl, MemeFallbackTitle) else (d.url, d.title)
    case None => (MemeFallbackUrl, MemeFallbackTitle)
  }

  /** The text of a missing message as a template literal renders it. */
  function QueryText(q: Option<string>): string {
    if q.Some? then q.value else "undefined"
  }

  /** The reminder delay `+m * 60000`: the captured minutes, converted to a Number,
      times 60000. For decimal digits that Number is finite and whole. */
  function DelayMs(minutes: string): (ms: nat)
    requires |minutes| >= 1 && AllDigits(minutes)
    ensures StringToNumber(minutes).Finite?
    ensures ms as real == StringToNumber(minutes).v * 60000.0
  {
    DigitStringValue(minutes);
    ValueIn(minutes, 10) * 60000
  }

  /** What handling a classified message gives: the new to-do list, the replies in
      order, and the replies scheduled for later. */
  datatype Handled = Handled(todos: seq<string>, replies: seq<Reply>, deferred: seq<Deferred>)

  /** The capability an intent selects, run against the collaborators' outcomes. */
  function Handle(i: Intent, todos: seq<string>, svc: Services): (h: Handled)
    requires i.Remind? ==> |i.minutes| >= 1 && AllDigits(i.minutes)
    ensures !i.TodoCmd? ==> h.todos == todos
    ensures i.Fault? <==> h.replies == []
    ensures |h.replies| <= 2
    ensures |h.replies| == 2 <==> i.Ocr? && !svc.ocr.LinkFailed?
    ensures h.deferred != [] <==> i.Remind?
    ensures i.TodoCmd? ==>
      var o := Todo.Handle(i.txt, todos);
      h.todos == o.todos && h.replies == [Text(o.reply)]
    ensures i.Summarize? ==> h.replies == [Text(SummaryPrefix + OrElse(svc.summarize(i.text), SummaryFallback))]
    ensures i.Paraphrase? ==> h.replies == [Text(ParaphrasePrefix + OrElse(svc.paraphrase(i.text), ParaphraseFallback))]
    ensures i.Anime? ==> h.replies == [Photo(OrElse(svc.anime(0), AnimeFallback), AnimeCaption)]
    ensures i.Meme? ==> h.replies == [Photo(MemeOf(svc).0, MemeOf(svc).1)]
    ensures i.Weather? ==> h.replies == [Text(OrElse(svc.weather(i.city), WeatherFallback))]
    ensures i.Translate? ==> h.replies == [Text(TranslatePrefix + OrElse(svc.translate(i.text), TranslateFallback))]
    ensures i.Assist? ==> h.replies == [Text(AssistPrefix + OrElse(svc.assist(QueryText(i.query)), AssistFallback))]
  {
    match i
    case Ocr =>
      var replies := match svc.ocr
        case LinkFailed => [Text(OcrFailed)]
        case RecognizeFailed => [Text(OcrProgress), Text(OcrFailed)]
        case Recognized(t) => [Text(OcrProgress), Text(OcrPrefix + t)];
      Handled(todos, replies, [])
    case Fault => Handled(todos, [], [])
    case TodoCmd(txt) =>
      var o := Todo.Handle(txt, todos);
      Handled(o.todos, [Text(o.reply)], [])
    case Summarize(t) =>
      Handled(todos, [Text(SummaryPrefix + OrElse(svc.summarize(t), SummaryFallback))], [])
    case Paraphrase(t) =>
      Handled(todos, [Text(ParaphrasePrefix + OrElse(svc.paraphrase(t), ParaphraseFallback))], [])
    case Anime => Handled(todos, [Photo(OrElse(svc.anime(0), AnimeFallback), AnimeCaption)], [])
    case Meme =>
      var (url, title) := MemeOf(svc);
      Handled(todos, [Photo(url, title)], [])
    case Weather(city) => Handled(todos, [Text(OrElse(svc.weather(city), WeatherFallback))], [])
    case Translate(t) =>
      Handled(todos, [Text(TranslatePrefix + OrElse(svc.translate(t), TranslateFallback))], [])
    case Remind(minutes, msg) =>
      Handled(todos, [Text(ReminderSet)], [Deferred(DelayMs(minutes), Text(ReminderPrefix + msg))])
    case Assist(q) =>
      Handled(todos, [Text(AssistPrefix + OrElse(svc.assist(QueryText(q)), AssistFallback))], [])
  }

  /** A reminder confirms at once and schedules exactly one reply, the message,
      after 60000 milliseconds per minute of the captured number. */
  lemma ReminderAction(minutes: string, msg: string, todos: seq<string>, svc: Services)
    requires |minutes| >= 1 && AllDigits(minutes)
    ensures AllDigitsOf(minutes, 10)
    ensures var h := Handle(Remind(minutes, msg), todos, svc);
      && h.todos == todos
      && h.replies == [Text(ReminderSet)]
      && |h.deferred| == 1
      && h.deferred[0] == Deferred(ValueIn(minutes, 10) * 60000, Text(ReminderPrefix + msg))
  {
    DecimalDigits(minutes);
  }

  /** OCR announces progress once the file link is known, then gives the
      recognised text or the failure notice; a failed link gives only the notice. */
  lemma OcrReplies(todos: seq<string>, svc: Services)
    ensures var h := Handle(Ocr, todos, svc);
      && h.replies[|h.replies| - 1] == (if svc.ocr.Recognized? then Text(OcrPrefix + svc.ocr.text) else Text(OcrFailed))
      && (|h.replies| == 2 ==> h.replies[0] == Text(OcrProgress))
  {
  }

  /** A `/todo` text whose verb is `list` answers with the listing, and the listing
      read back is the session's list, as long as no item spans several lines. */
  lemma TodoListReply(txt: string, todos: seq<string>, svc: Services)
    requires Todo.Arg(Todo.Args(txt), 0) == Some("list")
    requires forall k :: 0 <= k < |todos| ==> '\n' !in todos[k]
    ensures var h := Handle(TodoCmd(txt), todos, svc);
      && h.todos == todos
      && |h.replies| == 1 && h.replies[0].Text?
      && Todo.ParseListing(h.replies[0].body) == Some(todos)
  {
    Todo.ListingRoundTrip(todos);
  }

  /** Whether the external call an intent's branch makes fails. */
  predicate CallFails(i: Intent, svc: Services) {
    match i
    case Summarize(t) => svc.summarize(t).None?
    case Paraphrase(t) => svc.paraphrase(t).None?
    case Anime => svc.anime(0).None?
    case Meme => svc.meme.None?
    case Weather(city) => svc.weather(city).None?
    case Translate(t) => svc.translate(t).None?
    case Assist(q) => svc.assist(QueryText(q)).None?
    case _ => false
  }

  /** The reply a branch gives when its external call fails: its fixed fallback,
      with the branch's own prefix or caption. */
  function FallbackReply(i: Intent): Option<Reply> {
    match i
    case Summarize(_) => Some(Text(SummaryPrefix + SummaryFallback))
    case Paraphrase(_) => Some(Text(ParaphrasePrefix + ParaphraseFallback))
    case Anime => Some(Photo(AnimeFallback, AnimeCaption))
    case Meme => Some(Photo(MemeFallbackUrl, MemeFallbackTitle))
    case Weather(_) => Some(Text(WeatherFallback))
    case Translate(_) => Some(Text(TranslatePrefix + TranslateFallback))
    case Assist(_) => Some(Text(AssistPrefix + AssistFallback))
    case _ => None
  }

  /** A failed call never silences a branch: the user gets exactly one reply, the
      branch's fallback, and nothing else changes. */
  lemma FailedCallReplies(i: Intent, todos: seq<string>, svc: Services)
    requires CallFails(i, svc)
    ensures FallbackReply(i).Some?
    ensures Handle(i, todos, svc) == Handled(todos, [FallbackReply(i).value], [])
  {
  }
}

=== FILE: router.dfy ===
/** The main handler's decision: which capability a photo, document or text
    message goes to. The rules are tried in a fixed order and the first that
    applies wins; matching is on the lowercased text, while the summarize and
    paraphrase remainders and the AI fallback keep the original case. */
module Router {
  import opened JsString
  import opened JsNumber
  import opened Updates
  import opened Patterns

  datatype Intent =
    | Ocr
      /** A document without a declared media type: the media-type test fails
          before any capability runs, and nothing is replied. */
    | Fault
    | TodoCmd(txt: string)
    | Summarize(text: string)
    | Paraphrase(text: string)
    | Anime
    | Meme
    | Weather(city: string)
    | Translate(text: string)
      /** `minutes` is the digit capture and `message` the text to send later. */
    | Remind(minutes: string, message: string)
    | Assist(query: Option<string>)

  /** The message's text, or the empty text when it has none. */
  function TextOf(m: Message): string {
    if m.text.Some? then m.text.value else ""
  }

  /** The text the rules match against. */
  function Lowered(m: Message): (txt: string)
    ensures |txt| == |TextOf(m)|
  {
    ToLower(TextOf(m))
  }

  predicate IsImageDocument(m: Message) {
    m.document.Some? && m.document.value.mimeType.Some? && StartsWith(m.document.value.mimeType.value, "image/")
  }

  predicate IsUntypedDocument(m: Message) {
    m.document.Some? && m.document.value.mimeType.None?
  }

  /** The first matching rule's intent. */
  function Classify(m: Message): (r: Intent)
    ensures r == Ocr <==> m.hasPhoto || IsImageDocument(m)
    ensures r == Fault <==> !m.hasPhoto && IsUntypedDocument(m)
    ensures r.TodoCmd? ==> r.txt == Lowered(m) && StartsWith(r.txt, "/todo")
    ensures r.Summarize? ==> m.text.Some? && |m.text.value| >= 11 && m.text.value == m.text.value[..11] + r.text
    ensures r.Paraphrase? ==> m.text.Some? && |m.text.value| >= 12 && m.text.value == m.text.value[..12] + r.text
    ensures r.Remind? ==> |r.minutes| >= 1 && AllDigits(r.minutes)
    ensures r.Assist? ==> r.query == m.text
  {
    if m.hasPhoto then Ocr
    else if IsUntypedDocument(m) then Fault
    else if IsImageDocument(m) then Ocr
    else ClassifyText(m.text)
  }

  /** The rules for a message that is neither a photo nor a document the OCR or
      media-type tests catch: commands and keywords, then the three patterns. */
  function ClassifyText(text: Option<string>): (r: Intent)
    ensures r != Ocr && r != Fault
    ensures r.TodoCmd? ==> r.txt == ToLower(if text.Some? then text.value else "") && StartsWith(r.txt, "/todo")
    ensures r.Summarize? ==> text.Some? && |text.value| >= 11 && text.value == text.value[..11] + r.text
    ensures r.Paraphrase? ==> text.Some? && |text.value| >= 12 && text.value == text.value[..12] + r.text
    ensures r.Remind? ==> |r.minutes| >= 1 && AllDigits(r.minutes)
    ensures r.Assist? ==> r.query == text
  {
    var orig := if text.Some? then text.value else "";
    var txt := ToLower(orig);
    match CommandIntent(orig, txt)
    case Some(i) => i
    case None => PatternIntent(txt, text)
  }

  /** The command and keyword rules on the original text `orig` and its lowercase
      `txt`, or nothing when none of them applies. */
  function CommandIntent(orig: string, txt: string): (r: Option<Intent>)
    requires |txt| == |orig|
    ensures r.Some? ==> r.value.TodoCmd? || r.value.Summarize? || r.value.Paraphrase? || r.value == Anime || r.value == Meme
    ensures r.Some? && r.value.TodoCmd? ==> r.value.txt == txt && StartsWith(txt, "/todo")
    ensures r.Some? && r.value.Summarize? ==> |orig| >= 11 && orig == orig[..11] + r.value.text
    ensures r.Some? && r.value.Paraphrase? ==> |orig| >= 12 && orig == orig[..12] + r.value.text
  {
    if StartsWith(txt, "/todo") then Some(TodoCmd(txt))
    else if StartsWith(txt, "/summarize ") then Some(Summarize(orig[11..]))
    else if StartsWith(txt, "/paraphrase ") then Some(Paraphrase(orig[12..]))
    else if Contains(txt, "anime") then Some(Anime)
    else if Contains(txt, "meme") then Some(Meme)
    else None
  }

  /** The three regular-expression rules, tried on the lowercased text `txt`; the
      AI fallback gets the original `query`. */
  function PatternIntent(txt: string, query: Option<string>): (r: Intent)
    ensures r.Weather? || r.Translate? || r.Remind? || r.Assist?
    ensures r.Weather? <==> WeatherCity(txt).Some?
    ensures r.Translate? <==> WeatherCity(txt).None? && TranslateText(txt).Some?
    ensures r.Remind? <==> WeatherCity(txt).None? && TranslateText(txt).None? && FindRemind(txt, 0).Some?
    ensures r.Weather? ==> WeatherCity(txt).Some? && r.city == Trim(WeatherCity(txt).value)
    ensures r.Translate? ==> TranslateText(txt) == Some(r.text)
    ensures r.Remind? ==>
      var f := FindRemind(txt, 0);
      && f.Some?
      && r.minutes == txt[f.value.digitsFrom..f.value.digitsTo]
      && r.message == txt[f.value.from..f.value.to]
    ensures r.Remind? ==> |r.minutes| >= 1 && AllDigits(r.minutes)
    ensures r.Assist? ==> r.query == query
  {
    match WeatherCity(txt)
    case Some(city) => Weather(Trim(city))
    case None =>
      match TranslateText(txt)
      case Some(text) => Translate(text)
      case None =>
        match FindRemind(txt, 0)
        case Some(f) => Remind(txt[f.digitsFrom..f.digitsTo], txt[f.from..f.to])
        case None => Assist(query)
  }

  /** The rules of the cascade, in the order they are tried. */
  datatype Rule =
    | PhotoRule | UntypedDocumentRule | ImageDocumentRule
    | TodoRule | SummarizeRule | ParaphraseRule | AnimeRule | MemeRule
    | WeatherRule | TranslateRule | RemindRule

  function Rank(rule: Rule): (k: nat)
    ensures k <= 10
  {
    match rule
    case PhotoRule => 0
    case UntypedDocumentRule => 1
    case ImageDocumentRule => 2
    case TodoRule => 3
    case SummarizeRule => 4
    case ParaphraseRule => 5
    case AnimeRule => 6
    case MemeRule => 7
    case WeatherRule => 8
    case TranslateRule => 9
    case RemindRule => 10
  }

  /** When a rule applies to a message, stated without the search functions. */
  ghost predicate Applies(rule: Rule, m: Message) {
    var txt := Lowered(m);
    match rule
    case PhotoRule => m.hasPhoto
    case UntypedDocumentRule => IsUntypedDocument(m)
    case ImageDocumentRule => IsImageDocument(m)
    case TodoRule => StartsWith(txt, "/todo")
    case SummarizeRule => StartsWith(txt, "/summarize ")
    case ParaphraseRule => StartsWith(txt, "/paraphrase ")
    case AnimeRule => exists i :: OccursAt(txt, "anime", i)
    case MemeRule => exists i :: OccursAt(txt, "meme", i)
    case WeatherRule => exists p :: KeywordTailAt(txt, "cuaca", p)
    case TranslateRule => exists p :: KeywordTailAt(txt, "translate", p)
    case RemindRule => exists p :: RemindMatchesAt(txt, p)
  }

  /** The rule an intent comes from; the AI fallback comes from none. */
  function RuleOf(r: Intent): Option<Rule> {
    match r
    case Ocr => None
    case Fault => Some(UntypedDocumentRule)
    case TodoCmd(_) => Some(TodoRule)
    case Summarize(_) => Some(SummarizeRule)
    case Paraphrase(_) => Some(ParaphraseRule)
    case Anime => Some(AnimeRule)
    case Meme => Some(MemeRule)
    case Weather(_) => Some(WeatherRule)
    case Translate(_) => Some(TranslateRule)
    case Remind(_, _) => Some(RemindRule)
    case Assist(_) => None
  }

  /** Whether every rule ranked before `rank` fails on `m`. */
  ghost predicate NoneBefore(m: Message, rank: nat) {
    forall rule :: Rank(rule) < rank ==> !Applies(rule, m)
  }

  /** A rule's test as the handler performs it, with the search functions. */
  predicate Test(rule: Rule, m: Message) {
    match rule
    case PhotoRule => m.hasPhoto
    case UntypedDocumentRule => IsUntypedDocument(m)
    case ImageDocumentRule => IsImageDocument(m)
    case _ => TextTest(rule, Lowered(m))
  }

  /** The test of a text rule on the lowercased text. */
  predicate TextTest(rule: Rule, txt: string) {
    match rule
    case TodoRule => StartsWith(txt, "/todo")
    case SummarizeRule => StartsWith(txt, "/summarize ")
    case ParaphraseRule => StartsWith(txt, "/paraphrase ")
    case AnimeRule => Contains(txt, "anime")
    case MemeRule => Contains(txt, "meme")
    case WeatherRule => WeatherCity(txt).Some?
    case TranslateRule => TranslateText(txt).Some?
    case RemindRule => FindRemind(txt, 0).Some?
    case _ => false
  }

  /** The searches decide the declarative rules. */
  lemma TestDecides(m: Message)
    ensures forall rule :: Test(rule, m) <==> Applies(rule, m)
  {
    forall rule
      ensures Test(rule, m) <==> Applies(rule, m)
    {
      TestDecidesRule(rule, m);
    }
  }

  lemma TestDecidesRule(rule: Rule, m: Message)
    ensures Test(rule, m) <==> Applies(rule, m)
  {
    var txt := Lowered(m);
    match rule
    case WeatherRule => WeatherDecided(txt);
    case TranslateRule => TranslateDecided(txt);
    case RemindRule => RemindDecided(txt);
    case _ =>
  }

  /** Classification is first-match-wins over the rule order: the intent's rule
      applies and none ranked before it does; the AI fallback is reached exactly
      when no rule applies. OCR comes from the photo rule or the image-document
      rule, whichever applies first. */
  lemma ClassifyIsFirstMatch(m: Message)
    ensures Classify(m) == Ocr ==>
      (Applies(PhotoRule, m) && NoneBefore(m, 0)) || (Applies(ImageDocumentRule, m) && NoneBefore(m, 2))
    ensures RuleOf(Classify(m)).Some? ==>
      Applies(RuleOf(Classify(m)).value, m) && NoneBefore(m, Rank(RuleOf(Classify(m)).value))
    ensures Classify(m).Assist? <==> forall rule :: !Applies(rule, m)
  {
    var r := Classify(m);
    NoneBeforeChosen(m);
    if r != Ocr && !r.Assist? {
      ChosenPasses(m);
      TestDecidesRule(RuleOf(r).value, m);
    }
  }

  /** The rank of the rule a message's intent comes from; OCR comes from the photo
      rule or from the image-document rule. */
  function ChosenRank(m: Message): nat {
    var r := Classify(m);
    if r == Ocr then (if m.hasPhoto then 0 else 2) else IntentRank(r)
  }

  /** No rule ranked before the chosen one applies. */
  lemma NoneBeforeChosen(m: Message)
    ensures NoneBefore(m, ChosenRank(m))
  {
    forall rule | Rank(rule) < ChosenRank(m)
      ensures !Applies(rule, m)
    {
      TestDecidesRule(rule, m);
      FailsBefore(m, rule);
    }
  }

  /** A rule ranked before the chosen one fails its test. */
  lemma FailsBefore(m: Message, rule: Rule)
    requires Rank(rule) < ChosenRank(m)
    ensures !Test(rule, m)
  {
    if Rank(rule) >= 3 {
      assert Classify(m) == ClassifyText(m.text);
      TextFailsBefore(m.text, rule);
    }
  }

  /** The rank of the rule an intent comes from; the AI fallback ranks after all
      rules. */
  function IntentRank(r: Intent): nat {
    match RuleOf(r)
    case Some(rule) => Rank(rule)
    case None => 11
  }

  /** On text, a rule ranked before the chosen one fails its test. */
  lemma TextFailsBefore(text: Option<string>, rule: Rule)
    requires 3 <= Rank(rule) < IntentRank(ClassifyText(text))
    ensures !TextTest(rule, ToLower(if text.Some? then text.value else ""))
  {
    var orig := if text.Some? then text.value else "";
    var txt := ToLower(orig);
    var c := CommandIntent(orig, txt);
    if c.Some? || Rank(rule) < 8 {
      CommandFailsBefore(orig, txt, rule);
    } else {
      assert ClassifyText(text) == PatternIntent(txt, text);
      PatternFailsBefore(txt, text, rule);
    }
  }

  /** Among the regular-expression rules, those before the one that matches fail;
      when none matches, they all fail. */
  lemma PatternFailsBefore(txt: string, query: Option<string>, rule: Rule)
    requires 8 <= Rank(rule)
    requires Rank(rule) < IntentRank(PatternIntent(txt, query))
    ensures !TextTest(rule, txt)
  {
    RankExcludes(PatternIntent(txt, query));
  }

  /** An intent ranked after a regular-expression rule does not come from it. */
  lemma RankExcludes(r: Intent)
    ensures IntentRank(r) > 8 ==> !r.Weather?
    ensures IntentRank(r) > 9 ==> !r.Translate?
    ensures IntentRank(r) > 10 ==> !r.Remind?
  {
  }

  /** Among the command and keyword rules, those before the one that fires fail;
      when none fires, they all fail. */
  lemma CommandFailsBefore(orig: string, txt: string, rule: Rule)
    requires |txt| == |orig| && 3 <= Rank(rule) <= 7
    requires var c := CommandIntent(orig, txt); c.None? || Rank(rule) < Rank(RuleOf(c.value).value)
    ensures !TextTest(rule, txt)
  {
  }

  /** The rule the intent comes from passes its test. */
  lemma ChosenPasses(m: Message)
    requires RuleOf(Classify(m)).Some?
    ensures Test(RuleOf(Classify(m)).value, m)
  {
    var r := Classify(m);
    if r != Fault {
      assert r == ClassifyText(m.text);
      if !(r.Weather? || r.Translate? || r.Remind?) {
        assert CommandIntent(TextOf(m), Lowered(m)) == Some(r);
      } else {
        ClassifyPattern(m);
      }
    }
  }

  lemma WeatherDecided(txt: string)
    ensures WeatherCity(txt).Some? <==> exists p :: KeywordTailAt(txt, "cuaca", p)
  {
    KeywordTailLeftmost(txt, "cuaca", 0);
  }

  lemma TranslateDecided(txt: string)
    ensures TranslateText(txt).Some? <==> exists p :: KeywordTailAt(txt, "translate", p)
  {
    KeywordTailLeftmost(txt, "translate", 0);
  }

  lemma RemindDecided(txt: string)
    ensures FindRemind(txt, 0).Some? <==> exists p :: RemindMatchesAt(txt, p)
  {
    RemindLeftmost(txt, 0);
  }

  /** The rule chosen is the first that applies: whichever applies with no earlier
      rule applying is the one the intent comes from. */
  lemma FirstApplicable(m: Message, rule: Rule)
    requires rule != PhotoRule && rule != ImageDocumentRule
    requires Applies(rule, m) && NoneBefore(m, Rank(rule))
    ensures RuleOf(Classify(m)) == Some(rule)
  {
    ClassifyIsFirstMatch(m);
    var r := Classify(m);
    if r != Ocr {
      assert Rank(RuleOf(r).value) == Rank(rule);
    }
  }

  /** Text that mentions both `anime` and `meme`, or reads `translate anime`, gets
      the anime picture: the anime rule is tried first. */
  lemma AnimeWins(m: Message)
    requires Applies(AnimeRule, m) && NoneBefore(m, Rank(AnimeRule))
    ensures Classify(m) == Anime
  {
    FirstApplicable(m, AnimeRule);
  }

  lemma TranslateAnimeIsAnime()
    ensures Classify(Message(Some("translate anime"), false, None, None)) == Anime
  {
    var m := Message(Some("translate anime"), false, None, None);
    var txt := Lowered(m);
    ToLowerKeeps("translate anime");
    assert txt == "translate anime";
    assert txt[0] == 't';
    assert !StartsWith(txt, "/todo") by {
      assert txt[..5][0] == 't';
    }
    assert !StartsWith(txt, "/summarize ") by {
      assert txt[..11][0] == 't';
    }
    assert !StartsWith(txt, "/paraphrase ") by {
      assert txt[..12][0] == 't';
    }
    assert OccursAt(txt, "anime", 10) by {
      assert txt[10..15] == "anime";
    }
    AnimeWins(m);
  }

  /** `cuaca <city>` asks for the weather of the trimmed city: the lowered text
      starts with `cuaca` and one space, and the rest of the line is the city. */
  lemma WeatherIntent(m: Message)
    requires StartsWith(Lowered(m), "cuaca ")
    requires var city := Lowered(m)[6..];
      && |city| >= 1 && !IsSpace(city[0])
      && forall x :: 0 <= x < |city| ==> !IsLineTerminator(city[x])
    requires NoneBefore(m, Rank(WeatherRule))
    ensures Classify(m).Weather? && Classify(m).city == Trim(Lowered(m)[6..])
  {
    var s := Lowered(m);
    assert s[..5] == "cuaca" && s[5] == ' ' by {
      assert s[..5] == s[..6][..5];
    }
    forall x | 6 <= x < |s|
      ensures !IsLineTerminator(s[x])
    {
      assert s[x] == s[6..][x - 6];
    }
    KeywordCapture(s, "cuaca");
    WeatherSelected(m);
    assert s[6..|s|] == s[6..];
  }

  /** When the weather pattern matches and no earlier rule applies, the weather
      rule is chosen, with the trimmed capture of the leftmost match. */
  lemma WeatherSelected(m: Message)
    requires FindKeywordTail(Lowered(m), "cuaca", 0).Some?
    requires NoneBefore(m, Rank(WeatherRule))
    ensures Classify(m).Weather?
    ensures var f := FindKeywordTail(Lowered(m), "cuaca", 0).value;
      Classify(m).city == Trim(Lowered(m)[f.from..f.to])
  {
    assert Applies(WeatherRule, m) by {
      WeatherDecided(Lowered(m));
    }
    FirstApplicable(m, WeatherRule);
    ClassifyWeather(m);
  }

  /** `remind <n> <msg>` and `reminder <n> <msg>` yield the digits and the message. */
  lemma RemindIntent(m: Message, kw: string, digits: string, msg: string)
    requires kw == "remind" || kw == "reminder"
    requires Lowered(m) == kw + " " + digits + " " + msg
    requires |digits| >= 1 && AllDigits(digits)
    requires |msg| >= 1 && !IsSpace(msg[0])
    requires forall x :: 0 <= x < |msg| ==> !IsLineTerminator(msg[x])
    requires NoneBefore(m, Rank(RemindRule))
    ensures Classify(m) == Remind(digits, msg)
  {
    RemindThenLine(kw, digits, msg);
    RemindChosen(m, kw, |kw| + 1 + |digits|);
    RemindParts(kw, digits, msg);
  }

  /** On a text shaped like `kw digits msg`, with the digits ending at `d`, the
      reminder rule is chosen and captures the digits and the rest of the line. */
  lemma RemindChosen(m: Message, kw: string, d: nat)
    requires kw == "remind" || kw == "reminder"
    requires var s := Lowered(m);
      && |kw| + 1 < d && d + 1 < |s| && s[..|kw|] == kw && s[|kw|] == ' '
      && (forall x :: |kw| + 1 <= x < d ==> IsDigit(s[x]))
      && s[d] == ' ' && !IsSpace(s[d + 1])
      && (forall x :: d + 1 <= x < |s| ==> !IsLineTerminator(s[x]))
    requires NoneBefore(m, Rank(RemindRule))
    ensures Classify(m).Remind?
    ensures Classify(m).minutes == Lowered(m)[|kw| + 1..d]
    ensures Classify(m).message == Lowered(m)[d + 1..|Lowered(m)|]
  {
    RemindCapture(Lowered(m), kw, d);
    RemindSelected(m);
  }

  /** When the reminder pattern matches and no earlier rule applies, the reminder
      rule is chosen, with the leftmost match's captures. */
  lemma RemindSelected(m: Message)
    requires FindRemind(Lowered(m), 0).Some?
    requires NoneBefore(m, Rank(RemindRule))
    ensures Classify(m).Remind?
    ensures var f := FindRemind(Lowered(m), 0).value;
      && Classify(m).minutes == Lowered(m)[f.digitsFrom..f.digitsTo]
      && Classify(m).message == Lowered(m)[f.from..f.to]
  {
    assert Applies(RemindRule, m) by {
      RemindDecided(Lowered(m));
    }
    FirstApplicable(m, RemindRule);
    ClassifyRemind(m);
  }

  /** Where the digits and the message sit in `kw digits msg`. */
  lemma RemindParts(kw: string, digits: string, msg: string)
    ensures var s := kw + " " + digits + " " + msg;
      && s[|kw| + 1..|kw| + 1 + |digits|] == digits
      && s[|kw| + 2 + |digits|..|s|] == msg
  {
    var s := kw + " " + digits + " " + msg;
    assert s == (kw + " ") + digits + (" " + msg);
  }

  /** The weather, translate and reminder intents come from the pattern rules on
      the lowercased text. */
  lemma ClassifyPattern(m: Message)
    ensures Classify(m).Weather? || Classify(m).Translate? || Classify(m).Remind? ==>
      Classify(m) == PatternIntent(Lowered(m), m.text)
  {
    var r := Classify(m);
    if r.Weather? || r.Translate? || r.Remind? {
      assert r == ClassifyText(m.text);
      TextPattern(m.text);
    }
  }

  lemma TextPattern(text: Option<string>)
    ensures var r := ClassifyText(text);
      r.Weather? || r.Translate? || r.Remind? ==>
      r == PatternIntent(ToLower(if text.Some? then text.value else ""), text)
  {
  }

  /** The weather city is the trimmed capture of the leftmost `cuaca\s+(.+)` match
      in the lowercased text. */
  lemma ClassifyWeather(m: Message)
    ensures Classify(m).Weather? ==>
      var f := FindKeywordTail(Lowered(m), "cuaca", 0);
      f.Some? && Classify(m).city == Trim(Lowered(m)[f.value.from..f.value.to])
  {
    ClassifyPattern(m);
  }

  /** The text to translate is the capture of the leftmost `translate\s+(.+)`
      match in the lowercased text. */
  lemma ClassifyTranslate(m: Message)
    ensures Classify(m).Translate? ==>
      var f := FindKeywordTail(Lowered(m), "translate", 0);
      f.Some? && Classify(m).text == Lowered(m)[f.value.from..f.value.to]
  {
    ClassifyPattern(m);
  }

  /** The reminder's minutes and message are the two captures of the leftmost
      reminder match in the lowercased text. */
  lemma ClassifyRemind(m: Message)
    ensures Classify(m).Remind? ==>
      var f := FindRemind(Lowered(m), 0);
      && f.Some?
      && Classify(m).minutes == Lowered(m)[f.value.digitsFrom..f.value.digitsTo]
      && Classify(m).message == Lowered(m)[f.value.from..f.value.to]
  {
    ClassifyPattern(m);
  }
}

=== FILE: session.dfy ===
/** The per-conversation session (verification flag and to-do list), the `/start`
    and contact-share handlers that change it, and the verification gate. */
module Session {
  import opened JsString
  import opened Updates

  /** `todos` is absent until `/start` first sets it: the session middleware hands
      an identity it has not seen an empty object. */
  datatype Session = Session(verified: bool, todos: Option<seq<string>>)

  /** The session of an identity the middleware has not seen: neither the flag nor
      the list is set. */
  const Unseen: Session := Session(false, None)

  /** The state of a conversation that has just been (re)started. */
  const Fresh: Session := Session(false, Some([]))

  const StartReply: string := "\U{1F512} Verifikasi via kontak terlebih dahulu"
  const VerifiedReply: string := "\U{2705} Verifikasi berhasil."
  const OwnContactReply: string := "\U{26A0}\U{FE0F} Silakan bagikan kontak Anda sendiri."
  const VerifyFirstReply: string := "\U{1F512} Verifikasi dulu dengan /start dan bagikan kontak."

  /** A handler's new session and its one reply. */
  datatype Answer = Answer(session: Session, reply: string)

  /** `/start`: the session is re-armed whatever it was, an already verified user
      included. */
  function Start(s: Session): (r: Answer)
    ensures !r.session.verified && r.session.todos == Some([])
    ensures r.reply == StartReply
  {
    Answer(Fresh, StartReply)
  }

  /** Sharing a contact verifies the session exactly when the contact is the
      sender's own; any other contact leaves it as it was and warns. */
  function ShareContact(s: Session, c: Contact, fromId: int): (r: Answer)
    ensures r.session.verified <==> s.verified || c.userId == Some(fromId)
    ensures r.session.todos == s.todos
    ensures c.userId == Some(fromId) ==> r.reply == VerifiedReply
    ensures c.userId != Some(fromId) ==> r.session == s && r.reply == OwnContactReply
  {
    if c.userId == Some(fromId) then Answer(s.(verified := true), VerifiedReply)
    else Answer(s, OwnContactReply)
  }

  /** The verification gate: an update goes on when the session is verified or its
      text is exactly `/start`. The gate's third clause compares the update's type
      with `'contact'`, but a contact share is an update of type `'message'` (the
      contact is its sub-type), so that clause never holds. */
  predicate Passes(s: Session, m: Message) {
    s.verified || m.text == Some("/start")
  }

  /** `/start` forgets everything: two sessions, however different, are equal
      afterwards. */
  lemma StartForgets(s1: Session, s2: Session)
    ensures Start(s1) == Start(s2)
    ensures Start(s1).session == Fresh
  {
  }

  /** Sharing one's own contact opens the gate for every later message. */
  lemma OwnContactOpensGate(s: Session, id: int, m: Message)
    ensures Passes(ShareContact(s, Contact(Some(id)), id).session, m)
  {
  }

  /** An unverified session lets through only the exact text `/start`; a contact
      share is stopped like any other message. */
  lemma UnverifiedGate(s: Session, m: Message)
    requires !s.verified
    ensures Passes(s, m) <==> m.text == Some("/start")
    ensures m.contact.Some? && m.text.None? ==> !Passes(s, m)
  {
  }
}

=== FILE: todo.dfy ===
/** The `/todo` sub-router: `add`, `list` and `del` on the session's to-do list,
    and a usage reply for anything else. It reads the lower-cased message text. */
module Todo {
  import opened JsString
  import opened JsNumber

  const AddedPrefix: string := "\U{2705} Todo ditambahkan: "
  const ListPrefix: string := "\U{1F4DD} "
  const EmptyList: string := "\U{1F4DD} Todo kosong"
  const DeletedPrefix: string := "\U{274C} Dihapus: "
  const Usage: string := "Usage: /todo add|list|del"

  /** The list after a command, and the reply. */
  datatype Outcome = Outcome(todos: seq<string>, reply: string)

  /** `args[i]`, absent past the end. */
  function Arg(args: seq<string>, i: nat): Option<string> {
    if i < |args| then Some(args[i]) else None
  }

  /** `txt.split(' ').slice(1)`: the space-separated words after the first. */
  function Args(txt: string): (args: seq<string>)
    ensures forall k :: 0 <= k < |args| ==> ' ' !in args[k]
    ensures Join([Split(txt, ' ')[0]] + args, " ") == txt
  {
    var words := Split(txt, ' ');
    JoinSplit(txt, ' ');
    assert words == [words[0]] + words[1..];
    words[1..]
  }

  /** Where `Array.prototype.splice` starts on a list of length `len`, given its
      start argument after ToIntegerOrInfinity (section 23.1.3.31 of ECMAScript
      2023): a negative start counts from the end and stops at 0, a start past the
      end stops at the end. */
  function SpliceStart(start: ExtInt, len: nat): (k: nat)
    ensures k <= len
    ensures start == NegInfinity ==> k == 0
    ensures start == PosInfinity ==> k == len
    ensures start.Int? && start.n >= 0 ==> k == if start.n < len then start.n else len
    ensures start.Int? && start.n < 0 ==> k == if len + start.n < 0 then 0 else len + start.n
  {
    match start
    case NegInfinity => 0
    case PosInfinity => len
    case Int(n) =>
      if n < 0 then (if len + n < 0 then 0 else len + n)
      else if n < len then n
      else len
  }

  /** The index `list.splice(+arg - 1, 1)` starts at: an absent argument converts
      to NaN and so, like any other NaN, to 0. */
  function DeleteIndex(arg: Option<string>, len: nat): (k: nat)
    ensures k <= len
  {
    var n := match arg case None => NaN case Some(a) => StringToNumber(a);
    SpliceStart(ToIntegerOrInfinity(MinusOne(n)), len)
  }

  /** `todos` with the item at `k` taken out. */
  predicate RemovedAt(todos: seq<string>, after: seq<string>, k: int) {
    0 <= k < |todos| && after == todos[..k] + todos[k + 1..]
  }

  /** The listing lines `i. item`, numbered from 1. */
  function Numbered(todos: seq<string>): (lines: seq<string>)
    ensures |lines| == |todos|
    ensures forall i :: 0 <= i < |todos| ==> lines[i] == NatToString(i + 1) + ". " + todos[i]
  {
    seq(|todos|, i requires 0 <= i < |todos| => NatToString(i + 1) + ". " + todos[i])
  }

  /** The `list` reply. */
  function Render(todos: seq<string>): (r: string)
    ensures r == EmptyList <==> |todos| == 0
    ensures |todos| > 0 ==> StartsWith(r, ListPrefix)
    ensures |todos| > 0 ==> r == ListPrefix + Join(Numbered(todos), "\n")
  {
    if |todos| == 0 then EmptyList
    else
      var lines := Numbered(todos);
      var r := ListPrefix + Join(lines, "\n");
      JoinStartsWithFirst(lines, "\n");
      assert lines[0] == NatToString(1) + ". " + todos[0];
      assert IsDigit(lines[0][0]);
      assert r[2] == lines[0][0];
      assert EmptyList[2] == 'T';
      assert r[..|ListPrefix|] == ListPrefix;
      r
  }

  /** One to-do command, on the lower-cased text `txt` and the current list. */
  function Handle(txt: string, todos: seq<string>): (r: Outcome)
    ensures |todos| - 1 <= |r.todos| <= |todos| + 1
    ensures r.todos != todos ==> Arg(Args(txt), 0) == Some("add") || Arg(Args(txt), 0) == Some("del")
  {
    Command(Args(txt), todos)
  }

  /** One to-do command, given the words after the command word. */
  function Command(args: seq<string>, todos: seq<string>): (r: Outcome)
    ensures Arg(args, 0) == Some("add") ==>
              r.todos == todos + [Join(args[1..], " ")] && r.reply == AddedPrefix + r.todos[|todos|]
    ensures Arg(args, 0) == Some("list") ==> r == Outcome(todos, Render(todos))
    ensures Arg(args, 0) == Some("del") ==>
              r == Delete(todos, DeleteIndex(Arg(args, 1), |todos|))
    ensures Arg(args, 0) !in {Some("add"), Some("list"), Some("del")} ==> r == Outcome(todos, Usage)
  {
    var verb := Arg(args, 0);
    if verb == Some("add") then
      var item := Join(args[1..], " ");
      Outcome(todos + [item], AddedPrefix + item)
    else if verb == Some("list") then
      Outcome(todos, Render(todos))
    else if verb == Some("del") then
      Delete(todos, DeleteIndex(Arg(args, 1), |todos|))
    else Outcome(todos, Usage)
  }

  /** One to-do command in a session whose list was never set (no `/start` yet):
      the reply that gets sent, if any. `add` sends its acknowledgement and then
      fails at `list.push`, so nothing is stored; `list` and `del` fail at
      `list.length` and `list.splice` before replying; any other verb gets the
      usage text. */
  function HandleWithoutList(txt: string): (reply: Option<string>)
    ensures var verb := Arg(Args(txt), 0);
      && (verb == Some("add") <==> reply.Some? && StartsWith(reply.value, AddedPrefix))
      && (verb == Some("list") || verb == Some("del") <==> reply.None?)
      && (verb !in {Some("add"), Some("list"), Some("del")} <==> reply == Some(Usage))
  {
    var args := Args(txt);
    var verb := Arg(args, 0);
    assert Usage[0] != AddedPrefix[0];
    if verb == Some("add") then
      var reply := AddedPrefix + Join(args[1..], " ");
      assert reply[0] == AddedPrefix[0];
      Some(reply)
    else if verb == Some("list") || verb == Some("del") then None
    else Some(Usage)
  }

  /** Without a list, whatever reply is sent is the one the same command sends with
      any list, and only `list` and `del` stay silent. */
  lemma WithoutListRepliesAlike(txt: string, todos: seq<string>)
    ensures HandleWithoutList(txt).Some? ==> HandleWithoutList(txt).value == Handle(txt, todos).reply
    ensures HandleWithoutList(txt).None? <==> Arg(Args(txt), 0) in {Some("list"), Some("del")}
  {
  }

  /** `list.splice(k, 1)` and its reply, which shows the removed items joined by
      commas: the one removed item, or nothing. */
  function Delete(todos: seq<string>, k: nat): (r: Outcome)
    requires k <= |todos|
    ensures k < |todos| ==> RemovedAt(todos, r.todos, k) && r.reply == DeletedPrefix + todos[k]
    ensures k == |todos| ==> r == Outcome(todos, DeletedPrefix)
  {
    if k < |todos| then Outcome(todos[..k] + todos[k + 1..], DeletedPrefix + todos[k])
    else Outcome(todos, DeletedPrefix)
  }

  /** The words of `cmd verb rest`, for a command word and verb without spaces. */
  lemma ArgsOf(cmd: string, verb: string, rest: string)
    requires ' ' !in cmd && ' ' !in verb
    ensures Args(cmd + " " + verb + " " + rest) == [verb] + Split(rest, ' ')
  {
    var txt := cmd + " " + verb + " " + rest;
    assert txt == cmd + [' '] + (verb + [' '] + rest);
    SplitFirst(cmd, ' ', verb + [' '] + rest);
    SplitFirst(verb, ' ', rest);
  }

  /** `add` appends everything after the verb, spaces included, as one new item at
      the end, and echoes it. */
  lemma AddAppendsRest(cmd: string, rest: string, todos: seq<string>)
    requires ' ' !in cmd
    ensures Handle(cmd + " add " + rest, todos) == Outcome(todos + [rest], AddedPrefix + rest)
  {
    assert Handle(cmd + " add " + rest, todos) == Command(Args(cmd + " add " + rest), todos);
    assert cmd + " add " + rest == cmd + " " + "add" + " " + rest;
    ArgsOf(cmd, "add", rest);
    JoinSplit(rest, ' ');
    assert Args(cmd + " add " + rest)[1..] == Split(rest, ' ');
  }

  /** `del` followed by an argument that reads as the number `k` starts the splice
      at `k - 1`. `DigitStringValue` shows that decimal digits read as their
      value. */
  lemma DeleteIndexOfNumber(d: string, k: nat, len: nat)
    requires StringToNumber(d) == Finite(k as real)
    ensures DeleteIndex(Some(d), len) == SpliceStart(Int(k - 1), len)
  {
    StartBeforeNumber(k);
  }

  /** `+arg - 1` for an argument with value `k` is the integer `k - 1`. */
  lemma StartBeforeNumber(k: nat)
    ensures ToIntegerOrInfinity(MinusOne(Finite(k as real))) == Int(k - 1)
  {
    assert MinusOne(Finite(k as real)) == Finite(k as real - 1.0);
    assert (k - 1) as real == k as real - 1.0;
  }

  /** `del k` with k between 1 and the list's length removes exactly the k-th item;
      a larger k removes nothing. `ArgsOfNumber` shows which texts have these
      words. */
  lemma DeleteNumber(d: string, k: nat, todos: seq<string>)
    requires StringToNumber(d) == Finite(k as real)
    ensures 1 <= k <= |todos| ==>
      Command(["del", d], todos) == Outcome(todos[..k - 1] + todos[k..], DeletedPrefix + todos[k - 1])
    ensures k > |todos| ==> Command(["del", d], todos) == Outcome(todos, DeletedPrefix)
  {
    CommandDeleteNumber(d, k, todos);
    DeleteKth(todos, k);
  }

  /** A `del` command with an argument worth `k` splices at `k - 1`. */
  lemma CommandDeleteNumber(d: string, k: nat, todos: seq<string>)
    requires StringToNumber(d) == Finite(k as real)
    ensures Command(["del", d], todos) == Delete(todos, SpliceStart(Int(k - 1), |todos|))
  {
    CommandDelete(d, todos);
    DeleteIndexOfNumber(d, k, |todos|);
  }

  /** A `del` command with an argument splices at that argument's index. */
  lemma CommandDelete(d: string, todos: seq<string>)
    ensures Command(["del", d], todos) == Delete(todos, DeleteIndex(Some(d), |todos|))
  {
    assert Arg(["del", d], 0) == Some("del");
    assert Arg(["del", d], 1) == Some(d);
  }

  /** Splicing at `k - 1` removes the k-th item when there is one, else nothing. */
  lemma DeleteKth(todos: seq<string>, k: nat)
    ensures 1 <= k <= |todos| ==>
      Delete(todos, SpliceStart(Int(k - 1), |todos|)) == Outcome(todos[..k - 1] + todos[k..], DeletedPrefix + todos[k - 1])
    ensures k > |todos| ==> Delete(todos, SpliceStart(Int(k - 1), |todos|)) == Outcome(todos, DeletedPrefix)
  {
  }

  /** The words of `cmd del d` for a number `d`. */
  lemma ArgsOfNumber(cmd: string, d: string)
    requires ' ' !in cmd && AllDigits(d)
    ensures Args(cmd + " del " + d) == ["del", d]
  {
    assert cmd + " del " + d == cmd + " " + "del" + " " + d;
    ArgsOf(cmd, "del", d);
    assert ' ' !in d by {
      assert forall i :: 0 <= i < |d| ==> IsDigit(d[i]);
    }
    assert IndexOfChar(d, ' ') == |d|;
  }

  /** `del 0` computes the start -1, which counts from the end: it removes the last
      item. */
  lemma DeleteZeroRemovesLast(todos: seq<string>)
    requires |todos| >= 1
    ensures Command(["del", "0"], todos) == Outcome(todos[..|todos| - 1], DeletedPrefix + todos[|todos| - 1])
  {
    DigitStringValue("0");
    assert ValueIn("0", 10) == 0;
    CommandDeleteNumber("0", 0, todos);
    assert todos[|todos|..] == [];
  }

  /** `del` with no number computes NaN, which starts at 0: it removes the first
      item. */
  lemma DeleteWithoutNumberRemovesFirst(todos: seq<string>)
    requires |todos| >= 1
    ensures Command(["del"], todos) == Outcome(todos[1..], DeletedPrefix + todos[0])
  {
    assert Arg(["del"], 0) == Some("del");
    assert Arg(["del"], 1) == None;
    assert todos[..0] == [];
  }

  /** `cmd del` has the single word `del` after the command word. */
  lemma ArgsOfBareDelete(cmd: string)
    requires ' ' !in cmd
    ensures Args(cmd + " del") == ["del"]
  {
    assert cmd + " del" == cmd + [' '] + "del";
    SplitFirst(cmd, ' ', "del");
    assert IndexOfChar("del", ' ') == 3;
  }

  /** Reads one listing line back: its leading decimal number, written without
      leading zeros, `. `, the item. */
  function ParseLine(line: string): Option<(nat, string)> {
    var e := DigitsEnd(line, 0, 10);
    if e == 0 || (e > 1 && line[0] == '0') || !(e + 2 <= |line| && line[e..e + 2] == ". ") then None
    else Some((ValueIn(line[0..e], 10), line[e + 2..]))
  }

  /** Reads listing lines back, checking they are numbered `first`, `first + 1`, ... */
  function ParseLines(lines: seq<string>, first: nat): Option<seq<string>>
    decreases |lines|
  {
    if |lines| == 0 then Some([])
    else
      match ParseLine(lines[0])
      case None => None
      case Some((n, item)) =>
        if n != first then None
        else
          match ParseLines(lines[1..], first + 1)
          case None => None
          case Some(items) => Some([item] + items)
  }

  /** Reads a `list` reply back into the list it shows. */
  function ParseListing(reply: string): Option<seq<string>> {
    if reply == EmptyList then Some([])
    else if StartsWith(reply, ListPrefix) then ParseLines(Split(reply[|ListPrefix|..], '\n'), 1)
    else None
  }

  /** A numbered line reads back as its number and item. */
  lemma ParseNumberedLine(n: nat, item: string)
    ensures ParseLine(NatToString(n) + ". " + item) == Some((n, item))
  {
    var d := NatToString(n);
    var line := d + ". " + item;
    NatToStringValue(n);
    assert forall k :: 0 <= k < |d| ==> line[k] == d[k];
    assert line[|d|] == '.';
    DigitsRunThrough(line, |d|);
    assert line[0..|d|] == d;
    assert line[|d|..|d| + 2] == ". ";
    assert line[|d| + 2..] == item;
    assert ParseLine(line) == Some((ValueIn(line[0..|d|], 10), line[|d| + 2..]));
  }

  /** The digit run at the start of `s` ends at `e` when `s[..e]` are digits and
      `s[e]` is not. */
  lemma {:induction false} DigitsRunThrough(s: string, e: nat)
    requires e < |s| && !IsDigitOf(s[e], 10)
    requires forall k :: 0 <= k < e ==> IsDigit(s[k])
    ensures DigitsEnd(s, 0, 10) == e
  {
    DigitsRunFrom(s, 0, e);
  }

  lemma {:induction false} DigitsRunFrom(s: string, i: nat, e: nat)
    requires i <= e < |s| && !IsDigitOf(s[e], 10)
    requires forall k :: i <= k < e ==> IsDigit(s[k])
    ensures DigitsEnd(s, i, 10) == e
    decreases e - i
  {
    if i < e {
      assert IsDigitOf(s[i], 10);
      DigitsRunFrom(s, i + 1, e);
    }
  }

  /** Numbered lines read back as the items, when numbering starts at `first`. */
  lemma {:induction false} ParseNumberedLines(lines: seq<string>, todos: seq<string>, first: nat)
    requires |lines| == |todos|
    requires forall i :: 0 <= i < |todos| ==> lines[i] == NatToString(first + i) + ". " + todos[i]
    ensures ParseLines(lines, first) == Some(todos)
    decreases |todos|
  {
    if |todos| > 0 {
      ParseNumberedLine(first, todos[0]);
      assert lines[0] == NatToString(first) + ". " + todos[0];
      ParseNumberedLines(lines[1..], todos[1..], first + 1);
      assert [todos[0]] + todos[1..] == todos;
    }
  }

  /** The `list` reply shows the list: read back, it gives every item in order,
      numbered from 1, as long as no item spans several lines. */
  lemma ListingRoundTrip(todos: seq<string>)
    requires forall i :: 0 <= i < |todos| ==> '\n' !in todos[i]
    ensures ParseListing(Render(todos)) == Some(todos)
  {
    if |todos| > 0 {
      var lines := Numbered(todos);
      var body := Join(lines, "\n");
      var reply := ListPrefix + body;
      NumberedLinesSingle(todos);
      SplitJoin(lines, '\n');
      assert Render(todos) == reply;
      assert reply != EmptyList;
      assert StartsWith(reply, ListPrefix);
      assert reply[|ListPrefix|..] == body;
      ParseNumberedLines(lines, todos, 1);
      assert ParseListing(reply) == ParseLines(Split(body, '\n'), 1);
    }
  }

  /** A line that reads back as `(n, item)` is exactly the numbered line for it. */
  lemma ParsedLineIsNumbered(line: string, n: nat, item: string)
    requires ParseLine(line) == Some((n, item))
    ensures line == NatToString(n) + ". " + item
  {
    var e := DigitsEnd(line, 0, 10);
    var d := line[0..e];
    assert d[0] == line[0];
    CanonicalDigits(d);
    assert line == d + ". " + line[e + 2..];
  }

  /** Lines that read back as `todos` are the numbered lines for `todos`. */
  lemma {:induction false} ParsedLinesAreNumbered(lines: seq<string>, first: nat, todos: seq<string>)
    requires ParseLines(lines, first) == Some(todos)
    ensures |lines| == |todos|
    ensures forall i :: 0 <= i < |todos| ==> lines[i] == NatToString(first + i) + ". " + todos[i]
    decreases |lines|
  {
    if |lines| > 0 {
      var (n, item) := ParseLine(lines[0]).value;
      ParsedLineIsNumbered(lines[0], n, item);
      var rest := ParseLines(lines[1..], first + 1).value;
      ParsedLinesAreNumbered(lines[1..], first + 1, rest);
      assert todos == [item] + rest;
    }
  }

  /** The converse of `ListingRoundTrip`: a reply that reads back as a list is the
      `list` reply for that list, character for character. */
  lemma ListingExact(reply: string, todos: seq<string>)
    requires ParseListing(reply) == Some(todos)
    ensures reply == Render(todos)
  {
    if reply != EmptyList {
      var body := reply[|ListPrefix|..];
      var lines := Split(body, '\n');
      ParsedLinesAreNumbered(lines, 1, todos);
      assert lines == Numbered(todos);
      JoinSplit(body, '\n');
      assert reply == ListPrefix + body;
    }
  }

  /** Listing lines are single lines when the items are. */
  lemma NumberedLinesSingle(todos: seq<string>)
    requires forall i :: 0 <= i < |todos| ==> '\n' !in todos[i]
    ensures forall i :: 0 <= i < |todos| ==> '\n' !in Numbered(todos)[i]
  {
    forall i | 0 <= i < |todos|
      ensures '\n' !in Numbered(todos)[i]
    {
      var d := NatToString(i + 1);
      assert Numbered(todos)[i] == d + ". " + todos[i];
      assert '\n' !in d by {
        assert forall k :: 0 <= k < |d| ==> IsDigit(d[k]);
      }
    }
  }

  /** A join begins with its first part. */
  lemma JoinStartsWithFirst(parts: seq<string>, sep: string)
    requires |parts| >= 1
    ensures |Join(parts, sep)| >= |parts[0]|
    ensures Join(parts, sep)[..|parts[0]|] == parts[0]
  {
    if |parts| > 1 {
      assert Join(parts, sep) == parts[0] + (sep + Join(parts[1..], sep));
    }
  }
}

=== FILE: updates.dfy ===
/** The parts of an inbound platform update that the pipeline reads. */
module Updates {
  import opened JsString
  import Flood

  /** A shared contact; `userId` is absent when the contact is not a platform user. */
  datatype Contact = Contact(userId: Option<int>)

  /** An attached file and the media type its sender declared, if any. */
  datatype Document = Document(mimeType: Option<string>)

  /** A chat message: its text, whether it carries a photo, an attached document,
      a shared contact. A photo or document message has no text. */
  datatype Message = Message(
    text: Option<string>,
    hasPhoto: bool,
    document: Option<Document>,
    contact: Option<Contact>)

  /** A message update, from user `fromId` in chat `chatId`. */
  datatype Update = Update(chatId: int, fromId: int, message: Message)

  /** Flood windows and sessions are both kept per (chat, user) pair. */
  function IdentityOf(u: Update): Flood.Identity {
    Flood.Identity(u.chatId, u.fromId)
  }

  /** A character that can continue a command name (or start a bot-name suffix). */
  predicate IsCommandChar(c: char) {
    ('a' <= c <= 'z') || ('A' <= c <= 'Z') || ('0' <= c <= '9') || c == '_' || c == '@'
  }

  /** A text message whose leading command is `/start`, with or without a payload
      after it. */
  predicate IsStartCommand(m: Message) {
    && m.text.Some?
    && StartsWith(m.text.value, "/start")
    && (|m.text.value| == 6 || !IsCommandChar(m.text.value[6]))
  }
}
